=== FILE: README.md ===
# jstoxmlparser in Dafny

A model of `toXML`, the recursive serializer of jstoxmlparser. It turns a
JavaScript value tree into XML text, together with its helpers:

- `getType`: classifies a value;
- `filterStr`: literal substitution;
- `getAttributeKeyVals` / `formatAttributes`: attribute text;
- `objToArray`: mapping to element list;
- `isPrimitive` / `isSimpleObject` / `isSimpleType` / `isSimpleXML`: shape predicates;
- `getIndentStr`: indent builder;
- `getHeaderString`: XML declaration.

Input values are a closed datatype `Values.Value`:

- scalars: strings, integers, booleans, `null`, `undefined`, and dates as opaque text;
- arrays;
- plain mappings, as ordered key/value sequences;
- special objects `{ _name, _content, _attrs, _selfCloseTag }`.

Attribute collections are either the object form (`Values.Attrs.AttrMap`) or the array
form (`AttrList`). The rendering configuration is the record `Layout.Config`. Its fields
are `depth`, `indent`, `header`, `filter`, `attributesFilter` and the first-item mark.

`Serializer.ToXML` is a pure function with one case per branch of `toXML`'s `switch`:
special object, mapping, array, and the default text branch. Undefined is not a branch of
its own: a missing argument defaults to `{}` (dist/jstoxmlparser.js:251), so `undefined`
renders like an empty mapping. The function branch is left out (see below).

Modules, in dependency order:

| module | file | contents |
|---|---|---|
| `Wrappers` | wrappers.dfy | `Option` |
| `Values` | values.dfy | value shapes, `getType`, `String()` of integers, size measure |
| `Filters` | filters.dfy | `filterStr` |
| `Attributes` | attributes.dfy | attribute formatting |
| `Normalize` | normalize.dfy | `objToArray`, per-key element with hoisted `_attrs` / `_selfCloseTag` |
| `Layout` | layout.dfy | indent, header, configuration |
| `Serializer` | serializer.dfy | `toXML` |
| `SerializerProperties` | properties.dfy | properties of `toXML` |
| `Examples` | examples.dfy | worked inputs with their exact output |

Behaviour of the code worth knowing, which the model reproduces:

- **Header repeats.** With a header configured, one output can carry it several times.
  - Every depth-0 call on a simple value is the start of the output.
  - A special object counts as simple.
  - So with a header configured, each element of a top-level mapping or array carries its own
    declaration (`Examples.HeaderPerKeyExample`).
  - The mapping or array itself emits the header only when marked as first item. The entry
    call never sets that mark.
- **Null.** Only a top-level `null` or an array member `null` reaches the text branch and
  renders as the text `null` (`SerializerProperties.UnfilteredScalarText`). As a mapping value
  or a `_content`, `null` makes the key or name appear as raw text: `{ a: null }` is `a`
  (`SerializerProperties.NullValueIsRawKey`, `SerializerProperties.NullContentIsRawName`).
- **Empty spread array.** `{ _name, _content: [] }` renders as nothing at all, not even a
  header or a self-closed tag. Every member of an empty array qualifies as "all primitives",
  so the content is spread over zero siblings.
- **Parent attributes.** A spread (primitive/mapping array) content drops the parent's
  `_attrs` and `_selfCloseTag`. Each member becomes a special object with the parent's
  `_name`, so the private-name check still applies to every member: `{ _name: 'x_attrs',
  _content: [1, 2] }` renders only headers.
- **Indented layout.** With an indent, a nested element starts on a new line indented once
  per level, and a closing tag goes on its own line, indented to its element's level, when
  the inner text holds a tag: `{ a: { b: 'x' } }` with `indent: '  '` is `<a>`, a line break,
  `  <b>x</b>`, a line break, `</a>` (`Examples.IndentedNestingExample`).
  - The break before an opening tag is left out at every depth-0 element, not only the first:
    each counts as the start of the output. So top-level siblings are not separated:
    `{ a: 1, b: 2 }` with `indent: '  '` is `<a>1</a><b>2</b>` (`Examples.IndentedSiblingsExample`).

## Model

| member | source | states |
|---|---|---|
| Values.KindOf | dist/jstoxmlparser.js:80-82 | each category corresponds to exactly one value shape: arrays, special objects (mappings with a truthy `_name`), plain mappings, dates, null, undefined, strings, numbers, booleans |
| Values.ShapePredicates | dist/jstoxmlparser.js:189-215 | primitives are strings, numbers and booleans; plain objects are exactly the mappings; one-line values are the primitives, dates and special objects |
| Values.IsSimpleXml | dist/jstoxmlparser.js:220-224 | `isSimpleXML`: the text holds no `<`; stated by `Values.SimpleXmlConcat` and `SerializerProperties.ElementTextNotSimple` |
| Values.SimpleXmlConcat | dist/jstoxmlparser.js:220-224 | a concatenation is simple exactly when both parts are: one `<` anywhere makes it nested |
| Values.NatToString | dist/jstoxmlparser.js:96 | the decimal text of a natural number is non-empty, all digits, and has no leading zero |
| Values.NatToStringRoundTrip | dist/jstoxmlparser.js:96 | reading back the decimal text of `n` gives `n` |
| Values.IntToString | dist/jstoxmlparser.js:96 | `String(n)` is non-empty and starts with `-` exactly when `n` is negative |
| Values.IntToStringRoundTrip | dist/jstoxmlparser.js:96 | `String(n)` is well-formed integer text that parses back to `n` |
| Values.Text | dist/jstoxmlparser.js:96 | `String(v)`; its behaviour on numbers is stated by `Values.IntToString` and `Values.IntToStringRoundTrip`, and its use by `Filters.FilterStr` and the attribute lemmas |
| Filters.Replacement | dist/jstoxmlparser.js:96-98 | a truthy mapped value replaces a match by its `String()`; a falsy one (`''`, `0`, `false`, `null`, `undefined`) by the empty string |
| Filters.FirstMatch | dist/jstoxmlparser.js:94-96 | the key matched at a position is a non-empty table key that prefixes the remaining text, and no earlier-listed key matches there; no match exactly when no non-empty key is a prefix |
| Filters.FilterStr | dist/jstoxmlparser.js:90-99 | an absent or empty table leaves `String(input)` unchanged, with undefined input read as `''` |
| Filters.Replace | dist/jstoxmlparser.js:96-98 | the global `replace`; its behaviour is stated by `Filters.ReplaceLeftmostMatch`, `Filters.ReplaceUnmatched`, `Filters.ReplaceCopiesUnmatchedPrefix` and `Filters.ReplaceWithEmptyTable` |
| Filters.ReplaceWithEmptyTable | dist/jstoxmlparser.js:94-98 | an empty table replaces nothing |
| Filters.ReplaceCopiesUnmatchedPrefix | dist/jstoxmlparser.js:94-98 | text in which no key starts is copied unchanged ahead of the replaced rest |
| Filters.ReplaceUnmatched | dist/jstoxmlparser.js:94-98 | text in which no key occurs comes out unchanged |
| Filters.ReplaceLeftmostMatch | dist/jstoxmlparser.js:94-98 | the leftmost match is replaced by its mapped value (or `''` if falsy), the text before it is kept, and replacement resumes after it |
| Attributes.KeyVals | dist/jstoxmlparser.js:107-138 | one text per pair, in order, each rendered by the pair's form |
| Attributes.PairTexts | dist/jstoxmlparser.js:107-138 | the pair texts are as many as the pairs and each depends only on its own pair |
| Attributes.PairTextsAppend | dist/jstoxmlparser.js:107-138 | the pair texts of a concatenation are the two halves' texts, in order |
| Attributes.KeyValsAppend | dist/jstoxmlparser.js:107-138 | appending pairs to a collection appends their texts, whichever form it has |
| Attributes.FormatAttributes | dist/jstoxmlparser.js:146-155 | empty exactly for an empty collection; otherwise a space followed by the pair texts joined by single spaces |
| Attributes.MapPairText | dist/jstoxmlparser.js:126-133 | one pair of the object form; stated by `Attributes.MapPairBareIffTrue` and `Attributes.ListAgreesWithMapFilteredIff` |
| Attributes.ListPairText | dist/jstoxmlparser.js:116-122 | one pair of the array form; stated by `Attributes.ListPairBareIffUnfilteredTrue` and `Attributes.ListAgreesWithMapUnfiltered` |
| Attributes.MapPairBareIffTrue | dist/jstoxmlparser.js:126-133 | in the object form a pair is its bare key exactly when its original value is `true`, whatever the filter |
| Attributes.ListPairBareIffUnfilteredTrue | dist/jstoxmlparser.js:116-122 | in the array form a pair is its bare key exactly when no filter is given and its value is `true` |
| Attributes.ListAgreesWithMapUnfiltered | dist/jstoxmlparser.js:107-155 | without a filter the two forms render the same pairs identically |
| Attributes.ListAgreesWithMapFilteredIff | dist/jstoxmlparser.js:116-133 | with a filter a pair renders the same in both forms exactly when its value is not `true` |
| Attributes.JoinAppend | dist/jstoxmlparser.js:153 | joining a concatenation puts one separator between the joined halves |
| Attributes.FormatKeyValsAppend | dist/jstoxmlparser.js:146-155 | the leading space and joining separators make the formatted texts of two halves concatenate |
| Attributes.FormatAttributesAppend | dist/jstoxmlparser.js:146-155 | pairs render independently and in order: formatting a concatenation concatenates the formatted texts, duplicates kept |
| Normalize.Lookup | dist/jstoxmlparser.js:347 | `obj[k]` finds a value exactly when some entry has key `k`, and that entry is in the mapping |
| Normalize.RemoveKey | dist/jstoxmlparser.js:360 | `delete obj[k]` keeps exactly the entries with other keys |
| Normalize.RemoveKeys | dist/jstoxmlparser.js:346-352 | deleting a set of keys keeps exactly the entries whose key is outside the set |
| Normalize.RemoveKeysSingle | dist/jstoxmlparser.js:350 | whether an entry survives depends on its own key alone |
| Normalize.RemoveKeysAppend | dist/jstoxmlparser.js:350 | the surviving entries keep their order: deleting from a concatenation concatenates the deletions |
| Normalize.LookupRemoveKeys | dist/jstoxmlparser.js:350-354 | deleting other keys does not change what `obj[k]` finds, so the `_content` test after the hoist sees the original `_content` |
| Normalize.ObjToArray | dist/jstoxmlparser.js:173-181 | one special object per key, in key order, named by the key and holding its value, with no attributes |
| Normalize.ObjToArrayRoundTrip | dist/jstoxmlparser.js:173-181 | `objToArray` loses nothing: reading names and contents back gives the mapping |
| Normalize.AttrsOf | dist/jstoxmlparser.js:111-137 | an object is the object form with its key/value pairs in order; an array of non-empty mappings is the array form whose pair `i` is the first key and value of member `i`; undefined is no attributes |
| Normalize.Stripped | dist/jstoxmlparser.js:346-352 | a defined `_attrs` or `_selfCloseTag` is gone from the nested mapping and every other entry stays; with nothing to hoist the mapping is unchanged |
| Normalize.HoistedKeys | dist/jstoxmlparser.js:346-352 | the keys moved to the parent are exactly those of `_attrs` and `_selfCloseTag` whose value is defined |
| Normalize.HoistedAttrs | dist/jstoxmlparser.js:346-349 | the element carries the attributes a defined nested `_attrs` denotes, and none when it is absent or undefined |
| Normalize.HoistedSelfClose | dist/jstoxmlparser.js:346-349 | the element carries the nested `_selfCloseTag` exactly when it is a boolean, with the same value |
| Normalize.ElementContent | dist/jstoxmlparser.js:354-368 | a defined `_content` beside other keys gives the other keys' elements in order, then the `_content` value; otherwise the content is the stripped mapping itself; the content is no heavier than the mapping and well-formed when it is |
| Normalize.EntryElement | dist/jstoxmlparser.js:339-368 | the element for key `k` is named `k`; a value other than a plain mapping is its content as is, without attributes; a nested mapping hands its defined `_attrs` (as the collection it denotes) and its boolean `_selfCloseTag` to the element |
| Normalize.PlainMappingIsContent | dist/jstoxmlparser.js:341-368 | a nested mapping with no `_attrs`, `_selfCloseTag` or `_content` is the element's content unchanged |
| Normalize.HoistWithoutContent | dist/jstoxmlparser.js:354-368 | without a defined `_content` the content is the nested mapping minus its hoisted keys |
| Normalize.LoneContentStaysMapping | dist/jstoxmlparser.js:354-368 | a `_content` left as the only key is not unwrapped: the content is the mapping `{ _content: x }` |
| Normalize.ContentWithSiblings | dist/jstoxmlparser.js:354-363 | a defined `_content` beside other keys becomes an array: the other keys' elements in order, then the `_content` value |
| Layout.Repeat | dist/jstoxmlparser.js:70 | `s.repeat(n)` is `s` written `n` times: length `n·|s|`, character `i` being character `i mod |s|` of `s` |
| Layout.RepeatOnce | dist/jstoxmlparser.js:70 | `s.repeat(1)` is `s` |
| Layout.RepeatAdd | dist/jstoxmlparser.js:70 | repeating `a + b` times is repeating `a` times then `b` times |
| Layout.IndentStr | dist/jstoxmlparser.js:67-71 | the indent is the unit written `depth` times, with length `depth·|indent|`, and is empty exactly when the unit is empty or the depth is 0 |
| Layout.HeaderString | dist/jstoxmlparser.js:229-242 | the header is non-empty exactly at the output start with a header configured; it is the default declaration for `true` or the literal text, followed by a line break only when an indent is set |
| Serializer.PreTag | dist/jstoxmlparser.js:309-311 | the text before an opening tag is empty exactly without an indent or at depth 0, so no depth-0 element, first or not, is preceded by a line break |
| Serializer.PreTagClose | dist/jstoxmlparser.js:320-321 | the text before a closing tag is empty exactly without an indent or when the inner text holds no `<` |
| Serializer.LayoutBreakAndIndent | dist/jstoxmlparser.js:309-321 | either layout text, when not empty, is a line break followed by the indent unit repeated once per level, character by character |
| Serializer.ToXML | dist/jstoxmlparser.js:250-417 | `toXML`; its branches are stated by `SerializerProperties.ScalarRendersAsFilteredText`, `SelfClosingIff`, `OpenCloseElement`, `NullContentIsRawName`, `PrivateNameRendersNothing`, `SpreadAppendsMemberElement`, `ArrayAppendsMember`, `ObjectAppendsKeyElement`, and its depth behaviour by `ToXMLAlike` |
| Serializer.ElementText | dist/jstoxmlparser.js:309-324 | the tag around a rendered inner text; stated by `SerializerProperties.ElementTextClosedIff` and `SerializerProperties.OpenCloseElement` |
| Serializer.FanOut | dist/jstoxmlparser.js:290-299 | spreading content over same-named siblings; stated by `SerializerProperties.FanOutAppend` and `SerializerProperties.SpreadAppendsMemberElement` |
| Serializer.RenderItems | dist/jstoxmlparser.js:393-401 | the array branch's member loop; stated by `SerializerProperties.RenderItemsAppend` and `SerializerProperties.ArrayAppendsMember` |
| Serializer.RenderEntries | dist/jstoxmlparser.js:332-375 | the object branch's key loop; stated by `SerializerProperties.RenderEntriesAppend` and `SerializerProperties.ObjectAppendsKeyElement` |
| SerializerProperties.ScalarRendersAsFilteredText | dist/jstoxmlparser.js:406-416 | strings, numbers, booleans, dates and null render as their filtered text without tags, after the header at the output start |
| SerializerProperties.UnfilteredScalarText | dist/jstoxmlparser.js:90-99 | without a filter a string renders as itself and null as `null` |
| SerializerProperties.NullContentIsRawName | dist/jstoxmlparser.js:284-287 | a special object with null content is exactly its name: no tag, no attributes |
| SerializerProperties.NullValueIsRawKey | dist/jstoxmlparser.js:284-287 | a `null` under a mapping key renders as the raw key text after the preceding keys, not as `null` |
| SerializerProperties.PrivateNameRendersNothing | dist/jstoxmlparser.js:301-302 | a name containing `_attrs` or `_selfCloseTag` renders nothing but the header, when its content is neither `null` (then the name is raw text) nor spread over siblings (then each member is checked on its own) |
| SerializerProperties.UndefinedIsEmptyObject | dist/jstoxmlparser.js:251 | `undefined` renders as the empty object `{}` |
| SerializerProperties.ElementTextClosedIff | dist/jstoxmlparser.js:314-324 | an element's text is the self-closed tag exactly when the inner text is empty and `_selfCloseTag` is not `false` |
| SerializerProperties.SelfClosingIff | dist/jstoxmlparser.js:314-324 | for a name without `_attrs` or `_selfCloseTag` and content that is neither `null` nor spread, the output is the header, the line break and indent before the tag, and `<name attrs/>`, exactly when the inner rendering is empty and `_selfCloseTag` is not `false` |
| SerializerProperties.ElementTextNotSimple | dist/jstoxmlparser.js:318-321 | a rendered element always holds a `<`, so with an indent a parent whose inner text holds an element gets a line break before its closing tag |
| SerializerProperties.OpenCloseElement | dist/jstoxmlparser.js:305-324 | with non-empty inner text (even under `_selfCloseTag: true`) or `_selfCloseTag: false`, the element has an opening tag, the inner text and a closing tag |
| SerializerProperties.CompactOpenCloseElement | dist/jstoxmlparser.js:309-324 | without an indent, and below the top level or without a header, such an element is exactly `<name attrs>inner</name>` |
| SerializerProperties.AbsentContentSelfCloses | dist/jstoxmlparser.js:305-318 | a special object whose name holds neither `_attrs` nor `_selfCloseTag`, with undefined content and no `_selfCloseTag`, is the header, the line break and indent before the tag, and `<name attrs/>` |
| SerializerProperties.FanOutAppend | dist/jstoxmlparser.js:290-299 | spreading a concatenation concatenates the spreads |
| SerializerProperties.SpreadAppendsMemberElement | dist/jstoxmlparser.js:290-299 | spread content renders one element per member, named like the parent, at the parent's depth, without the parent's attributes; an empty array renders `''` |
| SerializerProperties.RenderItemsAppend | dist/jstoxmlparser.js:393-401 | rendering a concatenation of members concatenates the renderings, the first-item mark going to the very first |
| SerializerProperties.ArrayAppendsMember | dist/jstoxmlparser.js:389-404 | an array renders its members in order, only the first marked as first item |
| SerializerProperties.RenderEntriesAppend | dist/jstoxmlparser.js:332-375 | rendering a concatenation of entries concatenates the renderings |
| SerializerProperties.ObjectAppendsKeyElement | dist/jstoxmlparser.js:328-377 | a mapping renders one element per key in key order, built with the hoisting of `EntryElement`, only the first marked as first item |
| SerializerProperties.EmptyMappingRendersNothing | dist/jstoxmlparser.js:328-377 | a mapping with no keys renders nothing below the top level |
| SerializerProperties.HoistOnlyMappingSelfCloses | dist/jstoxmlparser.js:339-370 | a key without `_attrs` or `_selfCloseTag` in it, whose nested mapping holds only those two keys, appends to the preceding keys' output the header, the line break and indent before the tag, and `<key attrs/>` with the hoisted attributes, unless the hoisted `_selfCloseTag` is `false` |
| SerializerProperties.ToXMLAlike | dist/jstoxmlparser.js:250-417 | below depth 0 the output does not depend on the header or the first-item mark, nor on the depth when no indent is set |
| SerializerProperties.HeaderOnlyAtTop | dist/jstoxmlparser.js:271 | the output counts as started only at depth 0, so a call at depth > 0 never emits a header |
| SerializerProperties.NoIndentIgnoresDepth | dist/jstoxmlparser.js:310-321 | without an indent a nested value renders the same at every depth |
| SerializerProperties.NoIndentNoLayout | dist/jstoxmlparser.js:310-321 | without an indent no line break or indent is put around tags or after the header |
| Examples.MappingExample | dist/jstoxmlparser.js:328-377 | `{ foo: 'bar', baz: 2 }` is `<foo>bar</foo><baz>2</baz>` |
| Examples.HoistExample | dist/jstoxmlparser.js:344-352 | `{ a: { _attrs: { x: 1 } } }` is `<a x="1"/>` |
| Examples.SpreadExample | dist/jstoxmlparser.js:289-299 | `{ _name: 'a', _content: [1, 2] }` is `<a>1</a><a>2</a>` |
| Examples.HeaderIndentExample | dist/jstoxmlparser.js:229-242 | with `header: true` and `indent: '  '`, `{ root: 'x' }` is the declaration, a line break and `<root>x</root>` |
| Examples.IndentedNestingExample | dist/jstoxmlparser.js:309-321 | with `indent: '  '`, `{ a: { b: 'x' } }` is `"<a>\n  <b>x</b>\n</a>"` |
| Examples.IndentedSiblingsExample | dist/jstoxmlparser.js:269-311 | with `indent: '  '`, `{ a: 1, b: 2 }` is `<a>1</a><b>2</b>`, with no break between the top-level siblings |
| Examples.HeaderPerKeyExample | dist/jstoxmlparser.js:414-416 | with `header: true`, `{ a: 1, b: 2 }` carries the declaration before each element |

## Left out

- Function values (dist/jstoxmlparser.js:379-387): they are arbitrary callbacks that need not terminate, so `Value` has no function case.
- The UMD wrapper and the Babel helpers `_extends`, `_typeof`, `_toConsumableArray` (dist/jstoxmlparser.js:1-50) are module plumbing. Record update and sequence concatenation stand in for them.
- Filter keys are literal strings, not regular-expression sources.
  - A key with metacharacters is not interpreted.
  - An empty key never matches. The regular expression would match the empty string everywhere with it.
  - At one position the first-listed key wins, as regex alternation does.
- Numbers are integers, so JavaScript's floating-point `String()` is not modelled. A date is an opaque text, because its `String()` depends on locale and time zone.
- Own-key enumeration order: a mapping is an ordered sequence of entries.
  - Integer-like keys are not moved to the front as JavaScript would.
  - Duplicate keys, which a JavaScript object cannot have, are allowed. `obj[k]` reads the first one.
- Hoisting does not mutate the caller's nested mapping, though the source's `delete` does (dist/jstoxmlparser.js:350).
  - Rendering the same input twice is not modelled to differ.
  - A nested mapping shared by two keys is not modelled to differ either. For `n = { _attrs: { x: 1 } }`, the source renders `{ a: n, b: n }` as `<a x="1"/><b/>`, because the delete runs before `b` is rendered. The model gives `<a x="1"/><b x="1"/>`.
- A missing or non-string `_name` and an empty mapping key are excluded by the `Name` and `Key` types.
  - Only a truthy `_name` makes an object special (dist/jstoxmlparser.js:81). So `{ _name: '', b: 1 }` is a plain mapping in the source.
  - As a modelling choice, plain mappings never carry a `_name` key at all.
- Serializer.ToXML: it requires `WellFormed`. Every nested `_attrs` that a mapping hoists must be a mapping or an array of non-empty mappings. On `_attrs` of a special object the type `Attrs` enforces this. What the source does with other shapes is not modelled:
  - a string `_attrs` gives one attribute per character index (` 0="a" 1="b"`);
  - a number, boolean or date gives no attributes;
  - a special object turns its own keys into attributes (` _name="n"`);
  - `null` throws;
  - an array member that is an empty mapping gives `undefined="undefined"` when no filter is set;
  - an array member that is a string gives its index attributes (`['ab']` gives ` 0="a"`).
- `_isLastItem` is set by the source but never read, so the configuration has no such field. An absent `indent` is the empty string, and an absent `header` is `NoHeader`.
- Values.IntToString: stated for integers only, not for the floating-point values JavaScript numbers are. What is lost: fractions (`String(1.5)` is `"1.5"`), exponent notation from 1e21 up and below 1e-6 (`String(1e21)` is `"1e+21"`), `NaN`, `Infinity` and `-0` (which prints `"0"`), and integers above 2^53, which JavaScript cannot hold exactly.

=== FILE: attributes.dfy ===
/** `getAttributeKeyVals` and `formatAttributes`
    (dist/jstoxmlparser.js:107-155): an attribute collection rendered as
    ` key="value" key2` text. */
module Attributes {
  import opened Wrappers
  import opened Values
  import opened Filters

  /** One pair of the object form: a value that is `true` in the input is a
      bare key, whatever the filter; any other value is quoted, filtered when
      a filter is given. */
  function MapPairText(k: string, v: Value, f: Option<Table>): string {
    k + (if v == Bool(true) then "" else "=\"" + (if f.Some? then FilterStr(v, f) else Text(v)) + "\"")
  }

  /** One pair of the array form: the bare-key shorthand looks at the value
      after filtering, and a filter always produces a string. */
  function ListPairText(k: string, v: Value, f: Option<Table>): string {
    var fv := if f.Some? then Str(FilterStr(v, f)) else v;
    k + (if fv == Bool(true) then "" else "=\"" + Text(fv) + "\"")
  }

  /** One pair rendered by its collection's form. */
  function PairText(objectForm: bool, p: (string, Value), f: Option<Table>): string {
    if objectForm then MapPairText(p.0, p.1, f) else ListPairText(p.0, p.1, f)
  }

  /** `getAttributeKeyVals`: one text per pair, in order. */
  function KeyVals(a: Attrs, f: Option<Table>): (r: seq<string>)
    ensures |r| == |a.pairs|
    ensures forall i | 0 <= i < |r| :: r[i] == PairText(a.AttrMap?, a.pairs[i], f)
  {
    PairTexts(a.AttrMap?, a.pairs, f)
  }

  /** The pair texts of a sequence of pairs, all rendered in one form. */
  function PairTexts(objectForm: bool, ps: seq<(string, Value)>, f: Option<Table>): (r: seq<string>)
    ensures |r| == |ps|
    ensures forall i | 0 <= i < |r| :: r[i] == PairText(objectForm, ps[i], f)
  {
    if ps == [] then []
    else [PairText(objectForm, ps[0], f)] + PairTexts(objectForm, ps[1..], f)
  }

  /** `Array.prototype.join(sep)` on strings. */
  function Join(parts: seq<string>, sep: string): (r: string)
    ensures |parts| == 1 ==> r == parts[0]
  {
    if |parts| == 0 then ""
    else if |parts| == 1 then parts[0]
    else parts[0] + sep + Join(parts[1..], sep)
  }

  /** `formatAttributes`: empty for no pairs, otherwise a space followed by
      the pair texts joined by single spaces. */
  function FormatAttributes(a: Attrs, f: Option<Table>): (r: string)
    ensures r == "" <==> a.pairs == []
    ensures r != "" ==> r[0] == ' ' && r[1..] == Join(KeyVals(a, f), " ")
  {
    FormatKeyVals(KeyVals(a, f))
  }

  /** The text `formatAttributes` builds from the pair texts. */
  function FormatKeyVals(keyVals: seq<string>): string {
    if |keyVals| == 0 then "" else " " + Join(keyVals, " ")
  }

  /** Object form: a pair renders as its bare key exactly when its value is
      `true`. */
  lemma MapPairBareIffTrue(k: string, v: Value, f: Option<Table>)
    ensures MapPairText(k, v, f) == k <==> v == Bool(true)
  {
    if v != Bool(true) {
      assert |MapPairText(k, v, f)| > |k|;
    }
  }

  /** Array form: without a filter a pair is bare exactly when its value is
      `true`; with a filter it is never bare. */
  lemma ListPairBareIffUnfilteredTrue(k: string, v: Value, f: Option<Table>)
    ensures ListPairText(k, v, f) == k <==> f.None? && v == Bool(true)
  {
    if !(f.None? && v == Bool(true)) {
      assert |ListPairText(k, v, f)| > |k|;
    }
  }

  /** Without a filter the two forms render the same pairs identically. */
  lemma ListAgreesWithMapUnfiltered(ps: seq<(string, Value)>)
    ensures FormatAttributes(AttrList(ps), None) == FormatAttributes(AttrMap(ps), None)
  {
    assert KeyVals(AttrList(ps), None) == KeyVals(AttrMap(ps), None);
  }

  /** With a filter the two forms render a pair identically exactly when its
      value is not `true`. */
  lemma ListAgreesWithMapFilteredIff(ps: seq<(string, Value)>, t: Table, i: nat)
    requires i < |ps|
    ensures KeyVals(AttrList(ps), Some(t))[i] == KeyVals(AttrMap(ps), Some(t))[i]
            <==> ps[i].1 != Bool(true)
  {
    var (k, v) := ps[i];
    MapPairBareIffTrue(k, v, Some(t));
    ListPairBareIffUnfilteredTrue(k, v, Some(t));
  }

  lemma {:induction false} JoinAppend(x: seq<string>, y: seq<string>, sep: string)
    requires |x| > 0 && |y| > 0
    ensures Join(x + y, sep) == Join(x, sep) + sep + Join(y, sep)
    decreases |x|
  {
    if |x| == 1 {
      assert (x + y)[1..] == y;
    } else {
      assert (x + y)[1..] == x[1..] + y;
      JoinAppend(x[1..], y, sep);
    }
  }

  /** Pairs render independently and in order: formatting a concatenation
      of two collections concatenates their formatted texts. */
  lemma FormatAttributesAppend(a: Attrs, b: seq<(string, Value)>, f: Option<Table>)
    ensures FormatAttributes(a.(pairs := a.pairs + b), f)
            == FormatAttributes(a, f) + FormatAttributes(a.(pairs := b), f)
  {
    KeyValsAppend(a, b, f);
    FormatKeyValsAppend(KeyVals(a, f), KeyVals(a.(pairs := b), f));
  }

  lemma FormatKeyValsAppend(x: seq<string>, y: seq<string>)
    ensures FormatKeyVals(x + y) == FormatKeyVals(x) + FormatKeyVals(y)
  {
    if |x| > 0 && |y| > 0 {
      JoinAppend(x, y, " ");
    } else if |x| == 0 {
      assert x + y == y;
    } else {
      assert x + y == x;
    }
  }

  lemma KeyValsAppend(a: Attrs, b: seq<(string, Value)>, f: Option<Table>)
    ensures KeyVals(a.(pairs := a.pairs + b), f) == KeyVals(a, f) + KeyVals(a.(pairs := b), f)
  {
    PairTextsAppend(a.AttrMap?, a.pairs, b, f);
  }

  lemma {:induction false} PairTextsAppend(objectForm: bool, ps: seq<(string, Value)>,
                                           qs: seq<(string, Value)>, f: Option<Table>)
    ensures PairTexts(objectForm, ps + qs, f) == PairTexts(objectForm, ps, f) + PairTexts(objectForm, qs, f)
    decreases |ps|
  {
    if ps == [] {
      assert ps + qs == qs;
    } else {
      assert (ps + qs)[0] == ps[0];
      assert (ps + qs)[1..] == ps[1..] + qs;
      PairTextsAppend(objectForm, ps[1..], qs, f);
    }
  }
}

=== FILE: examples.dfy ===
/** Worked inputs whose exact output the serializer's documentation and
    comments give, checked against the model. */
module Examples {
  import opened Wrappers
  import opened Values
  import opened Filters
  import opened Attributes
  import opened Normalize
  import opened Layout
  import opened Serializer
  import opened SerializerProperties

  /** `toXML({ foo: 'bar', baz: 2 })` is `<foo>bar</foo><baz>2</baz>`. */
  lemma MappingExample()
    ensures ToXML(Obj([("foo", Str("bar")), ("baz", Num(2))]), DefaultConfig)
            == "<foo>bar</foo><baz>2</baz>"
  {
    MappingExampleSplit();
    FooElement();
    BazElement();
    MappingExampleText();
  }

  lemma FooElement()
    ensures WellFormed(Obj([("foo", Str("bar"))]))
    ensures ToXML(Obj([("foo", Str("bar"))]), DefaultConfig) == Wrap("foo", "bar")
  {
    assert HeaderString(NoHeader, "", true) == "";
    FirstKeyElement("foo", Str("bar"), DefaultConfig);
    SimpleElement("foo", Str("bar"), "bar", DefaultConfig.(isFirstItem := true));
  }

  lemma BazElement()
    ensures ToXML(Special("baz", Num(2), NoAttrs, None), DefaultConfig.(isFirstItem := false))
            == Wrap("baz", "2")
  {
    assert HeaderString(NoHeader, "", true) == "";
    SimpleElement("baz", Num(2), "2", DefaultConfig.(isFirstItem := false));
  }

  lemma MappingExampleSplit()
    ensures WellFormed(Obj([("foo", Str("bar"))]))
    ensures ToXML(Obj([("foo", Str("bar")), ("baz", Num(2))]), DefaultConfig)
            == ToXML(Obj([("foo", Str("bar"))]), DefaultConfig)
               + ToXML(Special("baz", Num(2), NoAttrs, None), DefaultConfig.(isFirstItem := false))
  {
    var foo: (Key, Value) := ("foo", Str("bar"));
    var baz: (Key, Value) := ("baz", Num(2));
    assert [foo] + [baz] == [foo, baz];
    ObjectAppendsKeyElement([foo], "baz", Num(2), DefaultConfig);
  }

  /** `toXML({ a: { _attrs: { x: 1 } } })` is `<a x="1"/>`: the nested
      `_attrs` moves onto the element for `a`, whose content is then the
      empty mapping, so the element closes itself. */
  lemma HoistExample()
    ensures ToXML(Obj([("a", Obj([("_attrs", Obj([("x", Num(1))]))]))]), DefaultConfig)
            == "<a x=\"1\"/>"
  {
    var v := Obj([("_attrs", Obj([("x", Num(1))]))]);
    HoistExampleEntry();
    assert HeaderString(NoHeader, "", true) == "";
    FirstKeyElement("a", v, DefaultConfig);
    HoistExampleElement();
  }

  lemma HoistExampleEntry()
    ensures HoistOk(Obj([("_attrs", Obj([("x", Num(1))]))]))
    ensures WellFormed(Obj([("_attrs", Obj([("x", Num(1))]))]))
    ensures EntryElement("a", Obj([("_attrs", Obj([("x", Num(1))]))]))
            == Special("a", Obj([]), AttrMap([("x", Num(1))]), None)
  {
    HoistExampleParts();
  }

  lemma HoistExampleParts()
    ensures HoistOk(Obj([("_attrs", Obj([("x", Num(1))]))]))
    ensures Stripped([("_attrs", Obj([("x", Num(1))]))]) == []
    ensures HoistedAttrs([("_attrs", Obj([("x", Num(1))]))]) == AttrMap([("x", Num(1))])
    ensures HoistedSelfClose([("_attrs", Obj([("x", Num(1))]))]) == None
  {
    var inner: seq<(Key, Value)> := [("_attrs", Obj([("x", Num(1))]))];
    assert Lookup(inner, "_selfCloseTag") == None;
    assert Lookup(inner, "_attrs") == Some(Obj([("x", Num(1))]));
    assert RemoveKey(inner, "_attrs") == [];
    assert AttrsOf(Obj([("x", Num(1))])).value.pairs == [("x", Num(1))];
  }

  lemma HoistExampleElement()
    ensures ToXML(Special("a", Obj([]), AttrMap([("x", Num(1))]), None), DefaultConfig.(isFirstItem := true))
            == "<a x=\"1\"/>"
  {
    var cfg := DefaultConfig.(isFirstItem := true);
    var attrs := AttrMap([("x", Num(1))]);
    ShortNameNotPrivate("a");
    EmptyMappingRendersNothing(Nested(cfg));
    SelfClosingIff("a", Obj([]), attrs, None, cfg);
    HoistExampleClosedText();
  }

  lemma HoistExampleClosedText()
    ensures SelfClosedText("a", AttrMap([("x", Num(1))]), DefaultConfig.(isFirstItem := true)) == "<a x=\"1\"/>"
  {
    assert HeaderString(NoHeader, "", true) == "";
    assert PreTag(DefaultConfig.(isFirstItem := true)) == "";
    OneAttribute();
  }

  lemma OneAttribute()
    ensures FormatAttributes(AttrMap([("x", Num(1))]), None) == " x=\"1\""
  {
    var kv := KeyVals(AttrMap([("x", Num(1))]), None);
    assert DigitChar(1) == '1';
    assert Text(Num(1)) == "1";
    assert kv[0] == MapPairText("x", Num(1), None) == "x=\"1\"";
    assert kv == ["x=\"1\""];
  }

  /** Content spread over siblings: `{ _name: 'a', _content: [1, 2] }` is
      `<a>1</a><a>2</a>`. */
  lemma SpreadExample()
    ensures ToXML(Special("a", Arr([Num(1), Num(2)]), NoAttrs, None), DefaultConfig)
            == "<a>1</a><a>2</a>"
  {
    SpreadExampleSplit();
    SpreadOne();
    SpreadTwo();
    SpreadExampleText();
  }

  lemma SpreadExampleSplit()
    ensures ToXML(Special("a", Arr([Num(1), Num(2)]), NoAttrs, None), DefaultConfig)
            == ToXML(Special("a", Num(1), NoAttrs, None), DefaultConfig)
               + ToXML(Special("a", Num(2), NoAttrs, None), DefaultConfig)
  {
    assert [Num(1)] + [Num(2)] == [Num(1), Num(2)];
    assert [] + [Num(1)] == [Num(1)];
    assert IsFanOut(Arr([Num(1), Num(2)]));
    SpreadAppendsMemberElement("a", [Num(1)], Num(2), NoAttrs, None, DefaultConfig);
    SpreadAppendsMemberElement("a", [], Num(1), NoAttrs, None, DefaultConfig);
  }

  lemma SpreadOne()
    ensures ToXML(Special("a", Num(1), NoAttrs, None), DefaultConfig) == Wrap("a", "1")
  {
    assert HeaderString(NoHeader, "", true) == "";
    assert DigitChar(1) == '1';
    SimpleElement("a", Num(1), "1", DefaultConfig);
  }

  lemma SpreadTwo()
    ensures ToXML(Special("a", Num(2), NoAttrs, None), DefaultConfig) == Wrap("a", "2")
  {
    assert HeaderString(NoHeader, "", true) == "";
    assert DigitChar(2) == '2';
    SimpleElement("a", Num(2), "2", DefaultConfig);
  }

  lemma SpreadExampleText()
    ensures Wrap("a", "1") + Wrap("a", "2") == "<a>1</a><a>2</a>"
  {
  }

  /** `header: true` with `indent: '  '`. */
  const IndentedWithHeader := Config(0, "  ", DefaultHeader, None, None, false)

  /** With `header: true` and `indent: '  '`, `{ root: 'x' }` is the
      default XML declaration, a line break, and `<root>x</root>`. */
  lemma HeaderIndentExample()
    ensures ToXML(Obj([("root", Str("x"))]), IndentedWithHeader)
            == DefaultXmlHeader + "\n" + "<root>x</root>"
  {
    HeaderIndentFirst();
    HeaderIndentElement();
    HeaderIndentText();
  }

  lemma HeaderIndentFirst()
    ensures ToXML(Obj([("root", Str("x"))]), IndentedWithHeader)
            == ToXML(Special("root", Str("x"), NoAttrs, None), IndentedWithHeader.(isFirstItem := true))
  {
    assert HeaderString(DefaultHeader, "  ", false) == "";
    FirstKeyElement("root", Str("x"), IndentedWithHeader);
  }

  lemma HeaderIndentElement()
    ensures ToXML(Special("root", Str("x"), NoAttrs, None), IndentedWithHeader.(isFirstItem := true))
            == DefaultXmlHeader + "\n" + Wrap("root", "x")
  {
    var cfg := IndentedWithHeader.(isFirstItem := true);
    SimpleElement("root", Str("x"), "x", cfg);
    assert HeaderString(DefaultHeader, "  ", true) == DefaultXmlHeader + "\n";
  }

  lemma HeaderIndentText()
    ensures DefaultXmlHeader + "\n" + Wrap("root", "x") == DefaultXmlHeader + "\n" + "<root>x</root>"
  {
  }

  /** `header: true` without an indent. */
  const WithHeader := Config(0, "", DefaultHeader, None, None, false)

  /** With `header: true`, every key of a top-level mapping is the start
      of the output, so `{ a: 1, b: 2 }` carries the declaration twice. */
  lemma HeaderPerKeyExample()
    ensures ToXML(Obj([("a", Num(1)), ("b", Num(2))]), WithHeader)
            == DefaultXmlHeader + "<a>1</a>" + DefaultXmlHeader + "<b>2</b>"
  {
    HeaderPerKeySplit();
    HeaderPerKeyFirst();
    HeaderPerKeySecond();
    HeaderPerKeyText();
  }

  lemma HeaderPerKeySplit()
    ensures ToXML(Obj([("a", Num(1)), ("b", Num(2))]), WithHeader)
            == ToXML(Obj([("a", Num(1))]), WithHeader) + ToXML(Special("b", Num(2), NoAttrs, None), WithHeader)
  {
    var a: (Key, Value) := ("a", Num(1));
    assert [a] + [("b", Num(2))] == [a, ("b", Num(2))];
    ObjectAppendsKeyElement([a], "b", Num(2), WithHeader);
  }

  lemma HeaderPerKeyFirst()
    ensures ToXML(Obj([("a", Num(1))]), WithHeader) == DefaultXmlHeader + Wrap("a", "1")
  {
    assert HeaderString(DefaultHeader, "", false) == "";
    assert HeaderString(DefaultHeader, "", true) == DefaultXmlHeader;
    assert DigitChar(1) == '1';
    FirstKeyElement("a", Num(1), WithHeader);
    SimpleElement("a", Num(1), "1", WithHeader.(isFirstItem := true));
  }

  lemma HeaderPerKeySecond()
    ensures ToXML(Special("b", Num(2), NoAttrs, None), WithHeader) == DefaultXmlHeader + Wrap("b", "2")
  {
    assert HeaderString(DefaultHeader, "", true) == DefaultXmlHeader;
    assert DigitChar(2) == '2';
    SimpleElement("b", Num(2), "2", WithHeader);
  }

  lemma HeaderPerKeyText()
    ensures DefaultXmlHeader + Wrap("a", "1") + (DefaultXmlHeader + Wrap("b", "2"))
            == DefaultXmlHeader + "<a>1</a>" + DefaultXmlHeader + "<b>2</b>"
  {
  }

  /** `indent: '  '` and no header. */
  const Indented := Config(0, "  ", NoHeader, None, None, false)

  /** With `indent: '  '`, `{ a: { b: 'x' } }` puts the nested element on
      its own indented line and the parent's closing tag on the next:
      `<a>`, a line break, `  <b>x</b>`, a line break, `</a>`. */
  lemma IndentedNestingExample()
    ensures ToXML(Obj([("a", Obj([("b", Str("x"))]))]), Indented) == "<a>\n  <b>x</b>\n</a>"
  {
    var inner := Obj([("b", Str("x"))]);
    IndentedNestingEntry();
    FirstKeyElement("a", inner, Indented);
    IndentedChild();
    IndentedParent();
  }

  lemma IndentedNestingEntry()
    ensures WellFormed(Obj([("b", Str("x"))])) && HoistOk(Obj([("b", Str("x"))]))
    ensures HeaderString(NoHeader, "  ", false) == ""
    ensures EntryElement("a", Obj([("b", Str("x"))])) == Special("a", Obj([("b", Str("x"))]), NoAttrs, None)
  {
    var inner: seq<(Key, Value)> := [("b", Str("x"))];
    assert Lookup(inner, "_attrs") == None;
    assert Lookup(inner, "_selfCloseTag") == None;
    assert Lookup(inner, "_content") == None;
    PlainMappingIsContent("a", inner);
  }

  /** One level down, `{ b: 'x' }` is a line break, one indent and
      `<b>x</b>`. */
  lemma IndentedChild()
    ensures ToXML(Obj([("b", Str("x"))]), Nested(Indented.(isFirstItem := true))) == "\n  <b>x</b>"
  {
    var c1 := Nested(Indented.(isFirstItem := true));
    assert HeaderString(NoHeader, "  ", false) == "";
    FirstKeyElement("b", Str("x"), c1);
    IndentedChildElement();
  }

  lemma IndentedChildElement()
    ensures ToXML(Special("b", Str("x"), NoAttrs, None), Nested(Indented).(isFirstItem := true)) == "\n  <b>x</b>"
  {
    var first := Nested(Indented).(isFirstItem := true);
    ShortNameNotPrivate("b");
    UnfilteredScalarText("x", Nested(first));
    OpenCloseElement("b", Str("x"), NoAttrs, None, first);
    IndentedChildLayout();
    IndentedChildText(HeaderString(NoHeader, "  ", false), PreTag(first), FormatAttributes(NoAttrs, None),
                      PreTagClose("x", first));
  }

  lemma IndentedChildLayout()
    ensures HeaderString(NoHeader, "  ", false) == ""
    ensures PreTag(Nested(Indented).(isFirstItem := true)) == "\n  "
    ensures PreTagClose("x", Nested(Indented).(isFirstItem := true)) == ""
    ensures FormatAttributes(NoAttrs, None) == ""
  {
    assert IndentStr("  ", 1) == "  ";
  }

  lemma IndentedChildText(h: string, p: string, f: string, c: string)
    requires h == "" && p == "\n  " && f == "" && c == ""
    ensures h + p + "<" + "b" + f + ">" + "x" + c + "</" + "b" + ">" == "\n  <b>x</b>"
  {
  }

  /** At depth 0 the element for `a` has no leading break, and its closing
      tag follows a bare line break because its inner text holds a tag. */
  lemma IndentedParent()
    ensures ToXML(Special("a", Obj([("b", Str("x"))]), NoAttrs, None), Indented.(isFirstItem := true))
            == "<a>\n  <b>x</b>\n</a>"
  {
    var top := Indented.(isFirstItem := true);
    var inner := "\n  <b>x</b>";
    IndentedNestingEntry();
    IndentedChild();
    ShortNameNotPrivate("a");
    OpenCloseElement("a", Obj([("b", Str("x"))]), NoAttrs, None, top);
    IndentedParentLayout();
    IndentedParentText(HeaderString(NoHeader, "  ", true), PreTag(top), FormatAttributes(NoAttrs, None),
                       PreTagClose(inner, top));
  }

  lemma IndentedParentLayout()
    ensures HeaderString(NoHeader, "  ", true) == ""
    ensures PreTag(Indented.(isFirstItem := true)) == ""
    ensures PreTagClose("\n  <b>x</b>", Indented.(isFirstItem := true)) == "\n"
    ensures FormatAttributes(NoAttrs, None) == ""
  {
    assert "\n  <b>x</b>"[3] == '<';
  }

  lemma IndentedParentText(h: string, p: string, f: string, c: string)
    requires h == "" && p == "" && f == "" && c == "\n"
    ensures h + p + "<" + "a" + f + ">" + "\n  <b>x</b>" + c + "</" + "a" + ">" == "<a>\n  <b>x</b>\n</a>"
  {
  }

  /** With an indent, sibling elements at the top level are not separated
      by a line break: every depth-0 element counts as the start of the
      output, so `{ a: 1, b: 2 }` is `<a>1</a><b>2</b>`. */
  lemma IndentedSiblingsExample()
    ensures ToXML(Obj([("a", Num(1)), ("b", Num(2))]), Indented) == "<a>1</a><b>2</b>"
  {
    IndentedSiblingsSplit();
    IndentedSiblingsFirst();
    IndentedSiblingsSecond();
    IndentedSiblingsText();
  }

  lemma IndentedSiblingsSplit()
    ensures ToXML(Obj([("a", Num(1)), ("b", Num(2))]), Indented)
            == ToXML(Obj([("a", Num(1))]), Indented) + ToXML(Special("b", Num(2), NoAttrs, None), Indented)
  {
    var a: (Key, Value) := ("a", Num(1));
    assert [a] + [("b", Num(2))] == [a, ("b", Num(2))];
    assert HeaderString(NoHeader, "  ", false) == "";
    ObjectAppendsKeyElement([a], "b", Num(2), Indented);
  }

  lemma IndentedSiblingsFirst()
    ensures ToXML(Obj([("a", Num(1))]), Indented) == Wrap("a", "1")
  {
    assert HeaderString(NoHeader, "  ", false) == "";
    assert HeaderString(NoHeader, "  ", true) == "";
    assert DigitChar(1) == '1';
    FirstKeyElement("a", Num(1), Indented);
    SimpleElement("a", Num(1), "1", Indented.(isFirstItem := true));
  }

  lemma IndentedSiblingsSecond()
    ensures ToXML(Special("b", Num(2), NoAttrs, None), Indented) == Wrap("b", "2")
  {
    assert HeaderString(NoHeader, "  ", true) == "";
    assert DigitChar(2) == '2';
    SimpleElement("b", Num(2), "2", Indented);
  }

  lemma IndentedSiblingsText()
    ensures Wrap("a", "1") + Wrap("b", "2") == "<a>1</a><b>2</b>"
  {
  }

  /** `<name>text</name>`. */
  function Wrap(name: string, text: string): string {
    "<" + name + ">" + text + "</" + name + ">"
  }

  lemma MappingExampleText()
    ensures Wrap("foo", "bar") + Wrap("baz", "2") == "<foo>bar</foo><baz>2</baz>"
  {
  }

  /** A mapping with one key renders that key's element. */
  lemma FirstKeyElement(k: Key, v: Value, cfg: Config)
    requires WellFormed(v) && HoistOk(v) && HeaderString(cfg.header, cfg.indent, cfg.depth == 0 && cfg.isFirstItem) == ""
    ensures WellFormed(Obj([(k, v)]))
    ensures ToXML(Obj([(k, v)]), cfg) == ToXML(EntryElement(k, v), cfg.(isFirstItem := true))
  {
    assert [] + [(k, v)] == [(k, v)];
    ObjectAppendsKeyElement([], k, v, cfg);
    ObjectUnfolds([], cfg);
  }

  /** A depth-0 element around a scalar, without a filter: the header if
      one is configured, then `<name>text</name>` with no layout text. */
  lemma SimpleElement(name: Name, v: Value, text: string, cfg: Config)
    requires v.Str? || v.Num? || v.Bool? || v.Date?
    requires cfg.depth == 0 && cfg.filter.None?
    requires |name| < 6 && text == Text(v) && text != "" && '<' !in text
    ensures ToXML(Special(name, v, NoAttrs, None), cfg)
            == HeaderString(cfg.header, cfg.indent, true) + Wrap(name, text)
  {
    ShortNameNotPrivate(name);
    ScalarRendersAsFilteredText(v, Nested(cfg));
    OpenCloseElement(name, v, NoAttrs, None, cfg);
    assert FormatAttributes(NoAttrs, None) == "";
    assert PreTag(cfg) == "";
    assert PreTagClose(text, cfg) == "";
    RegroupElement(HeaderString(cfg.header, cfg.indent, true), PreTag(cfg), name,
                   FormatAttributes(NoAttrs, None), text, PreTagClose(text, cfg));
  }

  lemma RegroupElement(h: string, p: string, name: string, a: string, text: string, c: string)
    requires p == "" && a == "" && c == ""
    ensures h + p + "<" + name + a + ">" + text + c + "</" + name + ">" == h + Wrap(name, text)
  {
  }

  lemma ShortNameNotPrivate(name: string)
    requires |name| < 6
    ensures !IsPrivateName(name)
  {
  }
}

=== FILE: filters.dfy ===
/** `filterStr` (dist/jstoxmlparser.js:90-99): rewrites text through a
    caller-supplied substitution table. The source joins the table's keys
    into one global regular expression `(k1|k2|...)`; here every key is a
    literal string, matched left to right, the first-listed key winning at a
    position, and empty keys never match. */
module Filters {
  import opened Wrappers
  import opened Values

  /** A substitution table: keys in insertion order, each mapped to the
      value that replaces it. */
  type Table = seq<(string, Value)>

  /** The replacement callback `filter[entity] || ''`: the mapped value's
      `String()` when it is truthy, the empty string otherwise. */
  function Replacement(r: Value): (out: string)
    ensures !Truthy(r) ==> out == ""
    ensures Truthy(r) ==> out == Text(r)
  {
    if Truthy(r) then Text(r) else ""
  }

  /** The entry whose key the alternation `(k1|k2|...)` matches at the
      start of `s`: the first-listed non-empty key that is a prefix of `s`. */
  function FirstMatch(s: string, t: Table): (m: Option<(string, Value)>)
    ensures m.Some? ==> m.value in t && m.value.0 != "" && m.value.0 <= s
    ensures m.Some? ==> exists i | 0 <= i < |t| :: t[i] == m.value && NoneMatchBefore(s, t, i)
    ensures m.None? <==> NoneMatchBefore(s, t, |t|)
  {
    if t == [] then None
    else if t[0].0 != "" && t[0].0 <= s then
      assert NoneMatchBefore(s, t, 0);
      Some(t[0])
    else
      var m := FirstMatch(s, t[1..]);
      NoneMatchShift(s, t);
      m
  }

  /** None of the first `n` keys of `t` is a non-empty prefix of `s`. */
  predicate NoneMatchBefore(s: string, t: Table, n: nat)
    requires n <= |t|
  {
    forall j | 0 <= j < n :: t[j].0 == "" || !(t[j].0 <= s)
  }

  /** When the first key does not match, looking past it is looking at the
      rest of the table shifted by one. */
  lemma NoneMatchShift(s: string, t: Table)
    requires t != [] && (t[0].0 == "" || !(t[0].0 <= s))
    ensures forall n | 0 <= n <= |t[1..]| :: NoneMatchBefore(s, t[1..], n) <==> NoneMatchBefore(s, t, n + 1)
  {
    forall n | 0 <= n <= |t[1..]|
      ensures NoneMatchBefore(s, t[1..], n) <==> NoneMatchBefore(s, t, n + 1)
    {
      if NoneMatchBefore(s, t[1..], n) {
        forall j | 0 <= j < n + 1
          ensures t[j].0 == "" || !(t[j].0 <= s)
        {
          if j > 0 { assert t[j] == t[1..][j - 1]; }
        }
      }
      if NoneMatchBefore(s, t, n + 1) {
        forall j | 0 <= j < n
          ensures t[1..][j].0 == "" || !(t[1..][j].0 <= s)
        {
          assert t[1..][j] == t[j + 1];
        }
      }
    }
  }

  /** The global `replace`: scan from the left; where some key matches,
      emit its replacement and skip the matched text, otherwise copy one
      character. */
  function Replace(s: string, t: Table): string
    decreases |s|
  {
    if s == [] then []
    else
      match FirstMatch(s, t)
      case Some(e) => Replacement(e.1) + Replace(s[|e.0|..], t)
      case None => [s[0]] + Replace(s[1..], t)
  }

  /** `String(inputStr)`, where an undefined input defaults to `''`. */
  function InputText(v: Value): string {
    if v.Undefined? then "" else Text(v)
  }

  /** No table key matches anywhere inside `p`, read as the start of `p + s`. */
  predicate NoMatchIn(p: string, s: string, t: Table) {
    forall i | 0 <= i < |p| :: FirstMatch((p + s)[i..], t).None?
  }

  /** `filterStr(value, table)`; an absent table defaults to `{}`. */
  function FilterStr(v: Value, t: Option<Table>): (r: string)
    ensures t.None? || t.value == [] ==> r == InputText(v)
  {
    ReplaceWithEmptyTable(InputText(v));
    Replace(InputText(v), t.GetOr([]))
  }

  /** An empty table leaves every string unchanged. */
  lemma {:induction false} ReplaceWithEmptyTable(s: string)
    ensures Replace(s, []) == s
    decreases |s|
  {
    if s != [] {
      ReplaceWithEmptyTable(s[1..]);
    }
  }

  /** Text in which no key matches is copied through unchanged, whatever
      follows it. */
  lemma {:induction false} ReplaceCopiesUnmatchedPrefix(p: string, s: string, t: Table)
    requires NoMatchIn(p, s, t)
    ensures Replace(p + s, t) == p + Replace(s, t)
    decreases |p|
  {
    if p != [] {
      NoMatchInTail(p, s, t);
      calc {
        Replace(p + s, t);
        { ReplaceCopiesFirst(p + s, t); }
        [(p + s)[0]] + Replace((p + s)[1..], t);
        { assert (p + s)[0] == p[0]; assert (p + s)[1..] == p[1..] + s; }
        [p[0]] + Replace(p[1..] + s, t);
        { ReplaceCopiesUnmatchedPrefix(p[1..], s, t); }
        [p[0]] + (p[1..] + Replace(s, t));
        { ConsRegroup(p, Replace(s, t)); }
        p + Replace(s, t);
      }
    } else {
      assert p + s == s;
    }
  }

  lemma NoMatchInTail(p: string, s: string, t: Table)
    requires p != [] && NoMatchIn(p, s, t)
    ensures FirstMatch(p + s, t).None?
    ensures NoMatchIn(p[1..], s, t)
  {
    assert (p + s)[0..] == p + s;
    forall i | 0 <= i < |p[1..]|
      ensures FirstMatch((p[1..] + s)[i..], t).None?
    {
      assert (p[1..] + s)[i..] == (p + s)[i + 1..];
    }
  }

  /** Where no key matches, the first character is copied. */
  lemma ReplaceCopiesFirst(s: string, t: Table)
    requires s != [] && FirstMatch(s, t).None?
    ensures Replace(s, t) == [s[0]] + Replace(s[1..], t)
  {
  }

  /** Where a key matches, its replacement is emitted and the match skipped. */
  lemma ReplaceSkipsMatch(s: string, k: string, r: Value, t: Table)
    requires FirstMatch(s, t) == Some((k, r))
    ensures |k| <= |s|
    ensures Replace(s, t) == Replacement(r) + Replace(s[|k|..], t)
  {
  }

  lemma ConsRegroup(p: string, x: string)
    requires p != []
    ensures [p[0]] + (p[1..] + x) == p + x
  {
    assert [p[0]] + p[1..] == p;
  }

  /** A string in which no key matches anywhere passes through unchanged. */
  lemma ReplaceUnmatched(s: string, t: Table)
    requires forall i | 0 <= i < |s| :: FirstMatch(s[i..], t).None?
    ensures Replace(s, t) == s
  {
    assert s + [] == s;
    assert NoMatchIn(s, [], t);
    ReplaceCopiesUnmatchedPrefix(s, [], t);
  }

  /** Left-to-right replacement: the leftmost match, by the first-listed key
      matching there, is replaced, and scanning resumes after it. */
  lemma ReplaceLeftmostMatch(p: string, k: string, r: Value, rest: string, t: Table)
    requires NoMatchIn(p, k + rest, t)
    requires FirstMatch(k + rest, t) == Some((k, r))
    ensures Replace(p + k + rest, t) == p + Replacement(r) + Replace(rest, t)
  {
    assert p + k + rest == p + (k + rest);
    ReplaceCopiesUnmatchedPrefix(p, k + rest, t);
    ReplaceSkipsMatch(k + rest, k, r, t);
    assert (k + rest)[|k|..] == rest;
    ConcatAssoc(p, Replacement(r), Replace(rest, t));
  }
}

=== FILE: layout.dfy ===
/** The rendering configuration threaded through `toXML`, the indent
    builder `getIndentStr` (dist/jstoxmlparser.js:67-71) and the header
    builder `getHeaderString` (dist/jstoxmlparser.js:229-242). */
module Layout {
  import opened Wrappers
  import opened Values
  import opened Filters

  /** `config.header`: absent or `false`, `true`, or any other value used
      literally (a literal `''` is falsy and emits nothing). */
  datatype Header = NoHeader | DefaultHeader | Literal(text: string)

  /** `config`: an absent `indent` behaves exactly like `''`, so it is
      modelled as the empty string. `_isLastItem` is written by the
      iterating branches but never read, so it is not modelled. */
  datatype Config = Config(
    depth: nat,
    indent: string,
    header: Header,
    filter: Option<Table>,
    attributesFilter: Option<Table>,
    isFirstItem: bool)

  /** The configuration of a top-level call that passes no options. */
  const DefaultConfig: Config := Config(0, "", NoHeader, None, None, false)

  const DefaultXmlHeader: string := "<?xml version=\"1.0\" encoding=\"UTF-8\"?>"

  /** `s.repeat(n)`: `s` written `n` times, so character `i` is character
      `i % |s|` of `s`. */
  function Repeat(s: string, n: nat): (r: string)
    ensures |r| == |s| * n
    ensures forall i | 0 <= i < |r| :: r[i] in s
    ensures |s| > 0 ==> forall i | 0 <= i < |r| :: r[i] == s[i % |s|]
  {
    if n == 0 then ""
    else
      var rest := Repeat(s, n - 1);
      RepeatStep(s, rest);
      s + rest
  }

  /** Writing `s` in front of a text that cycles through `s` keeps it
      cycling through `s`. */
  lemma RepeatStep(s: string, rest: string)
    requires |s| > 0 ==> forall i | 0 <= i < |rest| :: rest[i] == s[i % |s|]
    ensures |s| > 0 ==> forall i | 0 <= i < |s + rest| :: (s + rest)[i] == s[i % |s|]
  {
    if |s| > 0 {
      var m := |s|;
      forall i | 0 <= i < |s + rest|
        ensures (s + rest)[i] == s[i % m]
      {
        if i < m {
          ModSmall(i, m);
        } else {
          var j := i - m;
          assert (s + rest)[i] == rest[j];
          assert rest[j] == s[j % m];
          ModShift(j, m);
          assert j + m == i;
        }
      }
    }
  }

  lemma ModSmall(i: nat, m: nat)
    requires i < m
    ensures i % m == i
  {
  }

  lemma ModShift(j: nat, m: nat)
    requires m > 0
    ensures (j + m) % m == j % m
  {
    var q, r := j / m, j % m;
    var q2, r2 := (j + m) / m, (j + m) % m;
    var k := q + 1 - q2;
    assert k * m == r2 - r by {
      assert j == q * m + r && j + m == q2 * m + r2;
      assert (q + 1) * m == q * m + m;
      assert k * m == (q + 1) * m - q2 * m;
    }
    assert k == 0;
  }

  /** Writing `s` once is `s`. */
  lemma RepeatOnce(s: string)
    ensures Repeat(s, 1) == s
  {
    assert s + "" == s;
  }

  /** Repetition counts add: `s.repeat(a + b) == s.repeat(a) + s.repeat(b)`. */
  lemma {:induction false} RepeatAdd(s: string, a: nat, b: nat)
    ensures Repeat(s, a + b) == Repeat(s, a) + Repeat(s, b)
    decreases a
  {
    if a > 0 {
      var x, y := Repeat(s, a - 1), Repeat(s, b);
      RepeatAdd(s, a - 1, b);
      assert Repeat(s, a - 1 + b) == x + y;
      assert Repeat(s, a + b) == s + Repeat(s, a - 1 + b);
      assert Repeat(s, a) == s + x;
      ConcatAssoc(s, x, y);
    } else {
      assert Repeat(s, a) + Repeat(s, b) == Repeat(s, b);
    }
  }

  /** `getIndentStr`: the indent unit repeated once per level of depth. */
  function IndentStr(indent: string, depth: nat): (r: string)
    ensures |r| == |indent| * depth
    ensures indent == "" || depth == 0 <==> r == ""
    ensures forall i | 0 <= i < |r| :: r[i] in indent
    ensures indent != "" ==> forall i | 0 <= i < |r| :: r[i] == indent[i % |indent|]
  {
    Repeat(indent, depth)
  }

  /** Whether the header configuration asks for any header: `true`, or a
      truthy literal. */
  predicate HeaderEnabled(h: Header) {
    h.DefaultHeader? || (h.Literal? && h.text != "")
  }

  function HeaderText(h: Header): string {
    match h
    case DefaultHeader => DefaultXmlHeader
    case Literal(t) => t
    case NoHeader => ""
  }

  /** `getHeaderString`: the default declaration or the literal header,
      followed by a newline only when an indent is configured, and only at
      the start of the output. */
  function HeaderString(h: Header, indent: string, isOutputStart: bool): (r: string)
    ensures r != "" <==> isOutputStart && HeaderEnabled(h)
    ensures r != "" ==> r == HeaderText(h) + (if indent != "" then "\n" else "")
    ensures r != "" && h.DefaultHeader? ==> r[..|DefaultXmlHeader|] == DefaultXmlHeader
    ensures r != "" ==> (r[|r| - 1] == '\n' <==> indent != "" || HeaderText(h)[|HeaderText(h)| - 1] == '\n')
  {
    if !(HeaderEnabled(h) && isOutputStart) then ""
    else HeaderText(h) + (if indent != "" then "\n" else "")
  }
}

=== FILE: normalize.dfy ===
/** `objToArray` (dist/jstoxmlparser.js:173-181) and the per-key element
    construction of the object branch of `toXML` (dist/jstoxmlparser.js:339-368),
    which hoists a nested mapping's `_attrs` and `_selfCloseTag` onto the
    element built for its key. The source deletes the hoisted keys from the
    caller's object; here the hoist is a pure transform. */
module Normalize {
  import opened Wrappers
  import opened Values

  /** `obj[k]` on an ordered mapping: the first entry with key `k`. */
  function Lookup(es: seq<(Key, Value)>, k: Key): (r: Option<Value>)
    ensures r.Some? <==> exists i | 0 <= i < |es| :: es[i].0 == k
    ensures r.Some? ==> (k, r.value) in es
  {
    if es == [] then None
    else if es[0].0 == k then Some(es[0].1)
    else
      var r := Lookup(es[1..], k);
      assert forall i | 1 <= i < |es| :: es[1..][i - 1] == es[i];
      r
  }

  /** `delete obj[k]` for every `k` in `ks`: the entries with other keys,
      in their original order. */
  function RemoveKeys(es: seq<(Key, Value)>, ks: set<Key>): (r: seq<(Key, Value)>)
    ensures forall e | e in r :: e in es && e.0 !in ks
    ensures forall e | e in es && e.0 !in ks :: e in r
    ensures |r| <= |es|
  {
    if es == [] then []
    else if es[0].0 in ks then RemoveKeys(es[1..], ks)
    else [es[0]] + RemoveKeys(es[1..], ks)
  }

  /** `delete obj[k]`. */
  function RemoveKey(es: seq<(Key, Value)>, k: Key): (r: seq<(Key, Value)>)
    ensures forall e | e in r :: e in es && e.0 != k
    ensures forall e | e in es && e.0 != k :: e in r
  {
    RemoveKeys(es, {k})
  }

  /** Whether an entry survives depends on its own key alone. */
  lemma RemoveKeysSingle(e: (Key, Value), ks: set<Key>)
    ensures RemoveKeys([e], ks) == if e.0 in ks then [] else [e]
  {
    assert [e][1..] == [];
  }

  /** The survivors keep their order: removing from a concatenation
      concatenates the removals. */
  lemma {:induction false} RemoveKeysAppend(a: seq<(Key, Value)>, b: seq<(Key, Value)>, ks: set<Key>)
    ensures RemoveKeys(a + b, ks) == RemoveKeys(a, ks) + RemoveKeys(b, ks)
    decreases |a|
  {
    if a == [] {
      assert a + b == b;
    } else {
      assert (a + b)[0] == a[0];
      assert (a + b)[1..] == a[1..] + b;
      RemoveKeysAppend(a[1..], b, ks);
      if a[0].0 !in ks {
        assert [a[0]] + (RemoveKeys(a[1..], ks) + RemoveKeys(b, ks))
               == [a[0]] + RemoveKeys(a[1..], ks) + RemoveKeys(b, ks);
      }
    }
  }

  /** `objToArray`: one special object per key, in key order, with the key
      as its name and the key's value as its content. */
  function ObjToArray(es: seq<(Key, Value)>): (r: seq<Value>)
    ensures |r| == |es|
    ensures forall i | 0 <= i < |r| :: r[i] == Special(es[i].0, es[i].1, NoAttrs, None)
  {
    seq(|es|, i requires 0 <= i < |es| => Special(es[i].0, es[i].1, NoAttrs, None))
  }

  /** The inverse reading of a sequence of special objects as a mapping. */
  function ArrayToObj(xs: seq<Value>): (r: seq<(Key, Value)>)
    requires forall i | 0 <= i < |xs| :: xs[i].Special? && xs[i].name != "_name"
    ensures |r| == |xs|
  {
    seq(|xs|, i requires 0 <= i < |xs| => var key: Key := xs[i].name; (key, xs[i].content))
  }

  /** `objToArray` loses nothing: reading its output back gives the mapping. */
  lemma ObjToArrayRoundTrip(es: seq<(Key, Value)>)
    ensures var xs := ObjToArray(es);
            (forall i | 0 <= i < |xs| :: xs[i].Special? && xs[i].name != "_name")
            && ArrayToObj(xs) == es
  {
  }

  /** A value usable as an attribute collection: a mapping, or an array of
      non-empty mappings whose first key/value pair is the attribute.
      Other shapes (strings, numbers, null) are outside the model. */
  function AttrsOf(a: Value): (r: Option<Attrs>)
    ensures a.Obj? ==> r.Some? && r.value.AttrMap? && |r.value.pairs| == |a.entries|
    ensures a.Obj? ==> forall i | 0 <= i < |a.entries| ::
              r.value.pairs[i].0 == a.entries[i].0 && r.value.pairs[i].1 == a.entries[i].1
    ensures a.Arr? ==> (r.Some? <==> forall i | 0 <= i < |a.items| :: a.items[i].Obj? && |a.items[i].entries| > 0)
    ensures a.Arr? && r.Some? ==> r.value.AttrList? && |r.value.pairs| == |a.items|
    ensures a.Arr? && r.Some? ==> forall i | 0 <= i < |a.items| ::
              r.value.pairs[i].0 == a.items[i].entries[0].0 && r.value.pairs[i].1 == a.items[i].entries[0].1
    ensures a.Undefined? ==> r == Some(NoAttrs)
    ensures r.Some? ==> a.Obj? || a.Arr? || a.Undefined?
  {
    match a
    case Obj(es) => Some(AttrMap(seq(|es|, i requires 0 <= i < |es| => var key: string := es[i].0; (key, es[i].1))))
    case Arr(items) =>
      if forall i | 0 <= i < |items| :: items[i].Obj? && |items[i].entries| > 0
      then Some(AttrList(seq(|items|, i requires 0 <= i < |items| && items[i].Obj? && |items[i].entries| > 0 =>
                                       var key: string := items[i].entries[0].0; (key, items[i].entries[0].1))))
      else None
    case Undefined => Some(NoAttrs)
    case _ => None
  }

  /** The `_attrs` a nested mapping would hand to its parent element, if
      any, has a supported shape. */
  predicate HoistOk(v: Value) {
    v.Obj? ==>
      var a := Lookup(v.entries, "_attrs");
      a.None? || a.value.Undefined? || AttrsOf(a.value).Some?
  }

  /** The inputs the model covers: every nested mapping's hoisted
      `_attrs` has a supported shape. */
  predicate WellFormed(v: Value)
    decreases v
  {
    match v
    case Arr(xs) => forall i | 0 <= i < |xs| :: WellFormed(xs[i])
    case Obj(es) => forall e | e in es :: WellFormed(e.1) && HoistOk(e.1)
    case Special(_, c, _, _) => WellFormed(c)
    case _ => true
  }

  lemma {:induction false} SizeRemoveKeys(es: seq<(Key, Value)>, ks: set<Key>)
    ensures SizeEntries(RemoveKeys(es, ks)) <= SizeEntries(es)
    ensures forall k | k in ks && Lookup(es, k).Some? ::
              SizeEntries(RemoveKeys(es, ks)) + 3 + Size(Lookup(es, k).value) <= SizeEntries(es)
    decreases |es|
  {
    if es != [] {
      SizeRemoveKeys(es[1..], ks);
      if es[0].0 !in ks {
        assert RemoveKeys(es, ks)[1..] == RemoveKeys(es[1..], ks);
      }
    }
  }

  /** Looking up a key that is not removed finds the same entry as before. */
  lemma {:induction false} LookupRemoveKeys(es: seq<(Key, Value)>, ks: set<Key>, k: Key)
    requires k !in ks
    ensures Lookup(RemoveKeys(es, ks), k) == Lookup(es, k)
    decreases |es|
  {
    if es != [] {
      LookupRemoveKeys(es[1..], ks, k);
      if es[0].0 !in ks {
        assert RemoveKeys(es, ks)[0] == es[0];
        assert RemoveKeys(es, ks)[1..] == RemoveKeys(es[1..], ks);
      }
    }
  }

  /** Removing keys that no entry has changes nothing. */
  lemma {:induction false} RemoveAbsentKeys(es: seq<(Key, Value)>, ks: set<Key>)
    requires forall e | e in es :: e.0 !in ks
    ensures RemoveKeys(es, ks) == es
    decreases |es|
  {
    if es != [] {
      assert es[0] in es;
      RemoveAbsentKeys(es[1..], ks);
      assert [es[0]] + es[1..] == es;
    }
  }

  lemma {:induction false} SizeItemsAppend(a: seq<Value>, b: seq<Value>)
    ensures SizeItems(a + b) == SizeItems(a) + SizeItems(b)
    decreases |a|
  {
    if a != [] {
      assert (a + b)[0] == a[0];
      assert (a + b)[1..] == a[1..] + b;
      SizeItemsAppend(a[1..], b);
    } else {
      assert a + b == b;
    }
  }

  /** Wrapping every entry in a special object costs exactly what the entry
      weighed in the mapping. */
  lemma {:induction false} SizeObjToArray(es: seq<(Key, Value)>)
    ensures SizeItems(ObjToArray(es)) == SizeEntries(es)
    decreases |es|
  {
    if es != [] {
      assert ObjToArray(es)[1..] == ObjToArray(es[1..]);
      SizeObjToArray(es[1..]);
    }
  }

  /** The nested mapping has key `k` with a value other than undefined, so
      the key moves to the parent's element. */
  predicate Hoists(inner: seq<(Key, Value)>, k: Key) {
    var x := Lookup(inner, k);
    x.Some? && !x.value.Undefined?
  }

  /** The private keys (`_selfCloseTag`, `_attrs`) a nested mapping hands
      to its parent's element. */
  function HoistedKeys(inner: seq<(Key, Value)>): (ks: set<Key>)
    ensures forall k :: k in ks <==> (k == "_attrs" || k == "_selfCloseTag") && Hoists(inner, k)
  {
    (if Hoists(inner, "_selfCloseTag") then {"_selfCloseTag"} else {})
      + (if Hoists(inner, "_attrs") then {"_attrs"} else {})
  }

  /** A nested mapping with its hoisted keys deleted
      (`delete obj[key][privateVar]`); the other entries keep their order,
      as `RemoveKeysAppend` states. */
  function Stripped(inner: seq<(Key, Value)>): (rest: seq<(Key, Value)>)
    ensures forall e | e in rest :: e in inner
    ensures forall e | e in inner && e.0 != "_attrs" && e.0 != "_selfCloseTag" :: e in rest
    ensures Hoists(inner, "_attrs") ==> forall e | e in rest :: e.0 != "_attrs"
    ensures Hoists(inner, "_selfCloseTag") ==> forall e | e in rest :: e.0 != "_selfCloseTag"
    ensures !Hoists(inner, "_attrs") && !Hoists(inner, "_selfCloseTag") ==> rest == inner
    ensures SizeEntries(rest) <= SizeEntries(inner)
  {
    StripHoisted(inner, HoistedKeys(inner));
    RemoveKeys(inner, HoistedKeys(inner))
  }

  lemma StripHoisted(inner: seq<(Key, Value)>, ks: set<Key>)
    requires ks == HoistedKeys(inner)
    ensures var rest := RemoveKeys(inner, ks);
            && (forall e | e in inner && e.0 != "_attrs" && e.0 != "_selfCloseTag" :: e in rest)
            && (Hoists(inner, "_attrs") ==> forall e | e in rest :: e.0 != "_attrs")
            && (Hoists(inner, "_selfCloseTag") ==> forall e | e in rest :: e.0 != "_selfCloseTag")
            && (!Hoists(inner, "_attrs") && !Hoists(inner, "_selfCloseTag") ==> rest == inner)
            && SizeEntries(rest) <= SizeEntries(inner)
  {
    SizeRemoveKeys(inner, ks);
    if !Hoists(inner, "_attrs") && !Hoists(inner, "_selfCloseTag") {
      assert ks == {};
      RemoveAbsentKeys(inner, ks);
    }
  }

  /** The `_attrs` a nested mapping hands to its parent's element: the
      collection its value denotes when it is defined, none otherwise. */
  function HoistedAttrs(inner: seq<(Key, Value)>): (a: Attrs)
    requires HoistOk(Obj(inner))
    ensures !Hoists(inner, "_attrs") ==> a == NoAttrs
    ensures Hoists(inner, "_attrs") ==> Some(a) == AttrsOf(Lookup(inner, "_attrs").value)
  {
    var at := Lookup(inner, "_attrs");
    if at.Some? && !at.value.Undefined? then AttrsOf(at.value).value else NoAttrs
  }

  /** The nested mapping's `_selfCloseTag` is a boolean. */
  predicate HasBoolSelfClose(inner: seq<(Key, Value)>) {
    var sc := Lookup(inner, "_selfCloseTag");
    sc.Some? && sc.value.Bool?
  }

  /** The `_selfCloseTag` a nested mapping hands to its parent's element;
      only a boolean has any effect on rendering. */
  function HoistedSelfClose(inner: seq<(Key, Value)>): (sc: Option<bool>)
    ensures sc.Some? <==> HasBoolSelfClose(inner)
    ensures sc.Some? ==> Lookup(inner, "_selfCloseTag") == Some(Bool(sc.value))
  {
    var sc := Lookup(inner, "_selfCloseTag");
    if sc.Some? && sc.value.Bool? then Some(sc.value.b) else None
  }

  /** The stripped mapping has a defined `_content` beside other keys. */
  predicate HasSiblingContent(rest: seq<(Key, Value)>) {
    var content := Lookup(rest, "_content");
    content.Some? && !content.value.Undefined? && |rest| > 1
  }

  /** The content of the element built from a stripped nested mapping: a
      defined `_content` beside other keys becomes the other keys' elements
      followed by that `_content`; otherwise the mapping itself, even when
      `_content` is its only key. */
  function ElementContent(rest: seq<(Key, Value)>): (c: Value)
    ensures !HasSiblingContent(rest) ==> c == Obj(rest)
    ensures HasSiblingContent(rest) ==>
              var others := RemoveKey(rest, "_content");
              c.Arr? && |c.items| == |others| + 1
              && c.items[|others|] == Lookup(rest, "_content").value
              && (forall i | 0 <= i < |others| :: c.items[i] == Special(others[i].0, others[i].1, NoAttrs, None))
    ensures Size(c) <= Size(Obj(rest))
    ensures WellFormed(Obj(rest)) ==> WellFormed(c)
  {
    if HasSiblingContent(rest) then
      SiblingContent(rest);
      SiblingArray(rest)
    else
      Obj(rest)
  }

  /** The array a defined `_content` with siblings becomes. */
  function SiblingArray(rest: seq<(Key, Value)>): Value
    requires HasSiblingContent(rest)
  {
    Arr(ObjToArray(RemoveKey(rest, "_content")) + [Lookup(rest, "_content").value])
  }

  lemma SiblingContent(rest: seq<(Key, Value)>)
    requires HasSiblingContent(rest)
    ensures var c, others := SiblingArray(rest), RemoveKey(rest, "_content");
            && c.Arr? && |c.items| == |others| + 1
            && c.items[|others|] == Lookup(rest, "_content").value
            && (forall i | 0 <= i < |others| :: c.items[i] == Special(others[i].0, others[i].1, NoAttrs, None))
            && Size(c) <= Size(Obj(rest))
            && (WellFormed(Obj(rest)) ==> WellFormed(c))
  {
    var content := Lookup(rest, "_content").value;
    var others := RemoveKey(rest, "_content");
    var siblings := ObjToArray(others);
    var xs := siblings + [content];
    assert xs[|others|] == content;
    assert forall i | 0 <= i < |others| :: xs[i] == siblings[i];
    SiblingSize(rest, content, others, siblings);
    ContentWellFormed(rest, content);
  }

  lemma SiblingSize(rest: seq<(Key, Value)>, content: Value, others: seq<(Key, Value)>, siblings: seq<Value>)
    requires Lookup(rest, "_content") == Some(content)
    requires others == RemoveKey(rest, "_content") && siblings == ObjToArray(others)
    ensures Size(Arr(siblings + [content])) <= Size(Obj(rest))
  {
    SizeRemoveKeys(rest, {"_content"});
    SizeItemsAppend(siblings, [content]);
    SizeObjToArray(others);
    assert SizeItems([content]) == 2 + Size(content);
  }

  lemma ContentWellFormed(rest: seq<(Key, Value)>, c: Value)
    requires ("_content", c) in rest
    ensures WellFormed(Obj(rest)) ==>
              WellFormed(Arr(ObjToArray(RemoveKey(rest, "_content")) + [c]))
  {
    if WellFormed(Obj(rest)) {
      var others := RemoveKey(rest, "_content");
      var xs := ObjToArray(others) + [c];
      forall i | 0 <= i < |xs|
        ensures WellFormed(xs[i])
      {
        if i < |xs| - 1 {
          assert others[i] in others;
        }
      }
    }
  }

  /** The element `toXML` builds for key `k` of a mapping whose value is
      `v` (dist/jstoxmlparser.js:339-368): a nested plain mapping hands its
      defined `_attrs` and `_selfCloseTag` to the element and supplies the
      content described by `ElementContent`; any other value is the content
      as is. */
  function EntryElement(k: Key, v: Value): (r: Value)
    requires HoistOk(v)
    ensures r.Special? && r.name == k
    ensures Size(r) <= 1 + Size(v)
    ensures WellFormed(v) ==> WellFormed(r)
    ensures !v.Obj? ==> r == Special(k, v, NoAttrs, None)
    ensures v.Obj? && !Hoists(v.entries, "_attrs") ==> r.attrs == NoAttrs
    ensures v.Obj? && Hoists(v.entries, "_attrs") ==> Some(r.attrs) == AttrsOf(Lookup(v.entries, "_attrs").value)
    ensures v.Obj? ==> (r.selfClose.Some? <==> HasBoolSelfClose(v.entries))
    ensures v.Obj? && r.selfClose.Some? ==> Lookup(v.entries, "_selfCloseTag") == Some(Bool(r.selfClose.value))
    ensures v.Obj? ==> r.content == ElementContent(Stripped(v.entries))
  {
    match v
    case Obj(inner) =>
      var rest := Stripped(inner);
      Special(k, ElementContent(rest), HoistedAttrs(inner), HoistedSelfClose(inner))
    case _ =>
      Special(k, v, NoAttrs, None)
  }

  /** A nested mapping with nothing to hoist and no `_content` key is the
      element's content unchanged. */
  lemma PlainMappingIsContent(k: Key, inner: seq<(Key, Value)>)
    requires Lookup(inner, "_attrs").None? && Lookup(inner, "_selfCloseTag").None?
    requires Lookup(inner, "_content").None?
    ensures EntryElement(k, Obj(inner)) == Special(k, Obj(inner), NoAttrs, None)
  {
  }

  /** Without a defined `_content` the element's content is the nested
      mapping minus its hoisted keys, the rest in their order. */
  lemma HoistWithoutContent(k: Key, inner: seq<(Key, Value)>)
    requires HoistOk(Obj(inner))
    requires Lookup(inner, "_content").None? || Lookup(inner, "_content").value.Undefined?
    ensures EntryElement(k, Obj(inner)).content == Obj(RemoveKeys(inner, HoistedKeys(inner)))
  {
    LookupRemoveKeys(inner, HoistedKeys(inner), "_content");
  }

  /** A `_content` that is the only key left after hoisting is not
      unwrapped: the content is the mapping `{ _content: x }`, which renders
      as an element named `_content`. */
  lemma LoneContentStaysMapping(k: Key, inner: seq<(Key, Value)>, x: Value)
    requires HoistOk(Obj(inner))
    requires Stripped(inner) == [("_content", x)]
    ensures EntryElement(k, Obj(inner)).content == Obj([("_content", x)])
  {
  }

  /** A defined `_content` beside other keys makes the content an array: the
      other keys' elements in order, then the `_content` value. */
  lemma ContentWithSiblings(k: Key, inner: seq<(Key, Value)>, c: Value)
    requires HoistOk(Obj(inner))
    requires Lookup(Stripped(inner), "_content") == Some(c) && !c.Undefined?
    requires |Stripped(inner)| > 1
    ensures var r := EntryElement(k, Obj(inner));
            var others := RemoveKey(Stripped(inner), "_content");
            r.content.Arr? && |r.content.items| == |others| + 1
            && r.content.items[|others|] == c
            && (forall i | 0 <= i < |others| ::
                  r.content.items[i] == Special(others[i].0, others[i].1, NoAttrs, None))
  {
    var rest := Stripped(inner);
    assert HasSiblingContent(rest);
  }
}

=== FILE: properties.dfy ===
/** Properties of the serializer: how each kind of value renders, when
    elements self-close, how mappings, arrays and spread contents
    concatenate, and where headers and indentation can appear. */
module SerializerProperties {
  import opened Wrappers
  import opened Values
  import opened Filters
  import opened Attributes
  import opened Normalize
  import opened Layout
  import opened Serializer

  /** Strings, numbers, booleans, dates and null render as their filtered
      text with no tag; the header comes first when this call is the start
      of the output, which for null needs the first-item mark. */
  lemma ScalarRendersAsFilteredText(v: Value, cfg: Config)
    requires v.Str? || v.Num? || v.Bool? || v.Date? || v.Null?
    ensures ToXML(v, cfg)
            == HeaderString(cfg.header, cfg.indent, cfg.depth == 0 && (!v.Null? || cfg.isFirstItem))
               + FilterStr(v, cfg.filter)
    ensures cfg.depth > 0 || !HeaderEnabled(cfg.header) ==> ToXML(v, cfg) == FilterStr(v, cfg.filter)
  {
  }

  /** Without a filter a string renders as itself and null as the text
      `null`. */
  lemma UnfilteredScalarText(s: string, cfg: Config)
    requires cfg.filter.None? && (cfg.depth > 0 || !HeaderEnabled(cfg.header))
    ensures ToXML(Str(s), cfg) == s
    ensures ToXML(Null, cfg) == "null"
  {
    ScalarRendersAsFilteredText(Str(s), cfg);
    ScalarRendersAsFilteredText(Null, cfg);
  }

  /** A special object whose content is null is its name as raw text: no
      tag and no attributes. */
  lemma NullContentIsRawName(name: Name, attrs: Attrs, selfClose: Option<bool>, cfg: Config)
    ensures ToXML(Special(name, Null, attrs, selfClose), cfg)
            == HeaderString(cfg.header, cfg.indent, cfg.depth == 0) + name
  {
  }

  /** A `null` stored under a mapping key never reaches the text branch:
      the key's element has null content, so the key itself appears as raw
      text (`{ a: null }` is `a`). */
  lemma NullValueIsRawKey(es: seq<(Key, Value)>, k: Key, cfg: Config)
    requires forall e | e in es :: WellFormed(e.1) && HoistOk(e.1)
    ensures WellFormed(Obj(es + [(k, Null)]))
    ensures ToXML(Obj(es + [(k, Null)]), cfg)
            == ToXML(Obj(es), cfg) + (HeaderString(cfg.header, cfg.indent, cfg.depth == 0) + k)
  {
    ObjectAppendsKeyElement(es, k, Null, cfg);
    NullContentIsRawName(k, NoAttrs, None, cfg.(isFirstItem := es == []));
  }

  /** A special object whose name contains `_attrs` or `_selfCloseTag`
      renders nothing but the header, unless its content is null or spread
      over siblings. */
  lemma PrivateNameRendersNothing(name: Name, content: Value, attrs: Attrs,
                                  selfClose: Option<bool>, cfg: Config)
    requires WellFormed(content) && !content.Null? && !IsFanOut(content)
    requires IsPrivateName(name)
    ensures ToXML(Special(name, content, attrs, selfClose), cfg)
            == HeaderString(cfg.header, cfg.indent, cfg.depth == 0)
  {
  }

  /** An undefined value renders as the empty object `{}`. */
  lemma UndefinedIsEmptyObject(cfg: Config)
    ensures ToXML(Undefined, cfg) == ToXML(Obj([]), cfg)
    ensures ToXML(Undefined, cfg) == HeaderString(cfg.header, cfg.indent, cfg.depth == 0 && cfg.isFirstItem)
  {
  }

  lemma ArrayUnfolds(xs: seq<Value>, cfg: Config)
    requires forall i | 0 <= i < |xs| :: WellFormed(xs[i])
    ensures WellFormed(Arr(xs))
    ensures ToXML(Arr(xs), cfg)
            == HeaderString(cfg.header, cfg.indent, cfg.depth == 0 && cfg.isFirstItem)
               + RenderItems(xs, cfg, true)
  {
  }

  lemma ObjectUnfolds(es: seq<(Key, Value)>, cfg: Config)
    requires forall e | e in es :: WellFormed(e.1) && HoistOk(e.1)
    ensures WellFormed(Obj(es))
    ensures ToXML(Obj(es), cfg)
            == HeaderString(cfg.header, cfg.indent, cfg.depth == 0 && cfg.isFirstItem)
               + RenderEntries(es, cfg, true)
  {
  }

  lemma ElementUnfolds(name: Name, content: Value, attrs: Attrs, selfClose: Option<bool>, cfg: Config)
    requires WellFormed(content) && !content.Null? && !IsFanOut(content) && !IsPrivateName(name)
    ensures ToXML(Special(name, content, attrs, selfClose), cfg)
            == HeaderString(cfg.header, cfg.indent, cfg.depth == 0)
               + RenderElement(name, content, attrs, selfClose, cfg)
  {
  }

  /** The text of a self-closed element `<name attrs/>`, after the header
      and line break a call at this depth would emit. */
  function SelfClosedText(name: Name, attrs: Attrs, cfg: Config): string {
    HeaderString(cfg.header, cfg.indent, cfg.depth == 0)
      + (PreTag(cfg) + "<" + name + FormatAttributes(attrs, cfg.attributesFilter) + "/>")
  }

  /** The element text when it self-closes. */
  lemma ElementTextSelfClosed(name: Name, inner: string, attrs: Attrs, selfClose: Option<bool>, cfg: Config)
    requires SelfCloses(inner, selfClose)
    ensures ElementText(name, inner, attrs, selfClose, cfg)
            == PreTag(cfg) + "<" + name + FormatAttributes(attrs, cfg.attributesFilter) + "/>"
  {
  }

  /** The element text when it does not self-close. */
  lemma ElementTextOpenClose(name: Name, inner: string, attrs: Attrs, selfClose: Option<bool>, cfg: Config)
    requires !SelfCloses(inner, selfClose)
    ensures ElementText(name, inner, attrs, selfClose, cfg)
            == PreTag(cfg) + "<" + name + FormatAttributes(attrs, cfg.attributesFilter) + ">"
               + inner + PreTagClose(inner, cfg) + "</" + name + ">"
  {
    var a := FormatAttributes(attrs, cfg.attributesFilter);
    var tag := "<" + name + a + (if SelfCloses(inner, selfClose) then "/" else "") + ">";
    assert tag == "<" + name + a + ">" by {
      assert "<" + name + a + "" == "<" + name + a;
    }
    OpenTagRegroup(PreTag(cfg), tag, name, a, inner, PreTagClose(inner, cfg));
  }

  lemma OpenTagRegroup(p: string, tag: string, name: string, a: string, inner: string, c: string)
    requires tag == "<" + name + a + ">"
    ensures p + tag + (inner + c + "</" + name + ">")
            == p + "<" + name + a + ">" + inner + c + "</" + name + ">"
  {
  }

  /** An element self-closes exactly when its inner rendering is empty and
      `_selfCloseTag` is not `false`. */
  lemma SelfClosingIff(name: Name, content: Value, attrs: Attrs, selfClose: Option<bool>, cfg: Config)
    requires WellFormed(content) && !content.Null? && !IsFanOut(content) && !IsPrivateName(name)
    ensures ToXML(Special(name, content, attrs, selfClose), cfg) == SelfClosedText(name, attrs, cfg)
            <==> ToXML(content, Nested(cfg)) == "" && selfClose != Some(false)
  {
    ElementUnfolds(name, content, attrs, selfClose, cfg);
    var header := HeaderString(cfg.header, cfg.indent, cfg.depth == 0);
    var inner := ToXML(content, Nested(cfg));
    var closed := PreTag(cfg) + "<" + name + FormatAttributes(attrs, cfg.attributesFilter) + "/>";
    ElementTextClosedIff(name, inner, attrs, selfClose, cfg);
    PrefixCancel(header, RenderElement(name, content, attrs, selfClose, cfg), closed);
  }

  /** The element text is the self-closed tag exactly when it self-closes. */
  lemma ElementTextClosedIff(name: Name, inner: string, attrs: Attrs, selfClose: Option<bool>, cfg: Config)
    ensures ElementText(name, inner, attrs, selfClose, cfg)
            == PreTag(cfg) + "<" + name + FormatAttributes(attrs, cfg.attributesFilter) + "/>"
            <==> inner == "" && selfClose != Some(false)
  {
    var pre, a := PreTag(cfg), FormatAttributes(attrs, cfg.attributesFilter);
    if SelfCloses(inner, selfClose) {
      ElementTextSelfClosed(name, inner, attrs, selfClose, cfg);
    } else {
      ElementTextOpenClose(name, inner, attrs, selfClose, cfg);
      assert |pre + "<" + name + a + ">" + inner + PreTagClose(inner, cfg) + "</" + name + ">"|
             > |pre + "<" + name + a + "/>"|;
    }
  }

  /** A rendered element always holds a tag, so a parent whose content is
      an element closes on a line of its own when an indent is set. */
  lemma ElementTextNotSimple(name: Name, inner: string, attrs: Attrs, selfClose: Option<bool>, cfg: Config)
    ensures !IsSimpleXml(ElementText(name, inner, attrs, selfClose, cfg))
    ensures cfg.indent != "" ==> PreTagClose(ElementText(name, inner, attrs, selfClose, cfg), cfg) != ""
  {
    var pre := PreTag(cfg);
    assert ElementText(name, inner, attrs, selfClose, cfg)[|pre|] == '<';
  }

  lemma PrefixCancel(h: string, x: string, y: string)
    ensures h + x == h + y <==> x == y
  {
    if h + x == h + y {
      assert x == (h + x)[|h|..];
    }
  }

  /** Otherwise the element is an opening tag, the inner rendering, an
      optional line break and indent, and a closing tag; in particular an
      explicit `_selfCloseTag: true` does not close an element whose
      content renders to something. */
  lemma OpenCloseElement(name: Name, content: Value, attrs: Attrs, selfClose: Option<bool>, cfg: Config)
    requires WellFormed(content) && !content.Null? && !IsFanOut(content) && !IsPrivateName(name)
    requires ToXML(content, Nested(cfg)) != "" || selfClose == Some(false)
    ensures var inner := ToXML(content, Nested(cfg));
            ToXML(Special(name, content, attrs, selfClose), cfg)
            == HeaderString(cfg.header, cfg.indent, cfg.depth == 0) + PreTag(cfg)
               + "<" + name + FormatAttributes(attrs, cfg.attributesFilter) + ">"
               + inner + PreTagClose(inner, cfg) + "</" + name + ">"
  {
    var inner := ToXML(content, Nested(cfg));
    assert !SelfCloses(inner, selfClose);
    ElementUnfolds(name, content, attrs, selfClose, cfg);
    ElementTextOpenClose(name, inner, attrs, selfClose, cfg);
    var header := HeaderString(cfg.header, cfg.indent, cfg.depth == 0);
    var pre, attrText, close := PreTag(cfg), FormatAttributes(attrs, cfg.attributesFilter), PreTagClose(inner, cfg);
    var body := pre + "<" + name + attrText + ">" + inner + close + "</" + name + ">";
    assert ToXML(Special(name, content, attrs, selfClose), cfg) == header + body;
    ConcatRegroup(header, pre, "<", name, attrText, ">", inner, close, "</", name, ">");
  }

  /** Without an indent, and below the top level or without a header, an
      element that does not self-close is exactly
      `<name attrs>inner</name>`. */
  lemma CompactOpenCloseElement(name: Name, content: Value, attrs: Attrs, selfClose: Option<bool>,
                                cfg: Config)
    requires WellFormed(content) && !content.Null? && !IsFanOut(content) && !IsPrivateName(name)
    requires cfg.indent == "" && (cfg.depth > 0 || !HeaderEnabled(cfg.header))
    requires ToXML(content, Nested(cfg)) != "" || selfClose == Some(false)
    ensures ToXML(Special(name, content, attrs, selfClose), cfg)
            == "<" + name + FormatAttributes(attrs, cfg.attributesFilter) + ">"
               + ToXML(content, Nested(cfg)) + "</" + name + ">"
  {
    var inner := ToXML(content, Nested(cfg));
    OpenCloseElement(name, content, attrs, selfClose, cfg);
    NoIndentNoLayout(inner, cfg);
    DropEmpties(HeaderString(cfg.header, cfg.indent, cfg.depth == 0), PreTag(cfg), "<", name,
                FormatAttributes(attrs, cfg.attributesFilter), ">", inner, PreTagClose(inner, cfg),
                "</", name, ">");
  }

  lemma DropEmpties(h: string, p: string, a: string, b: string, c: string, d: string,
                    e: string, f: string, g: string, i: string, j: string)
    requires h == "" && p == "" && f == ""
    ensures h + p + a + b + c + d + e + f + g + i + j == a + b + c + d + e + g + i + j
  {
    assert h + p + a == a;
  }

  lemma ConcatRegroup(a: string, b: string, c: string, d: string, e: string, f: string,
                      g: string, h: string, i: string, j: string, k: string)
    ensures a + (b + c + d + e + f + g + h + i + j + k) == a + b + c + d + e + f + g + h + i + j + k
  {
  }

  /** A special object with absent content and no `_selfCloseTag` is the
      self-closed `<name attrs/>`. */
  lemma AbsentContentSelfCloses(name: Name, attrs: Attrs, cfg: Config)
    requires !IsPrivateName(name)
    ensures ToXML(Special(name, Undefined, attrs, None), cfg) == SelfClosedText(name, attrs, cfg)
  {
    SelfClosingIff(name, Undefined, attrs, None, cfg);
  }

  lemma {:induction false} FanOutAppend(name: Name, xs: seq<Value>, ys: seq<Value>, cfg: Config)
    requires forall i | 0 <= i < |xs| :: WellFormed(xs[i])
    requires forall i | 0 <= i < |ys| :: WellFormed(ys[i])
    ensures FanOut(name, xs + ys, cfg) == FanOut(name, xs, cfg) + FanOut(name, ys, cfg)
    decreases |xs|
  {
    if xs == [] {
      assert xs + ys == ys;
    } else {
      var zs := xs + ys;
      ItemsTailWellFormed(xs, ys);
      var head := ToXML(Special(name, xs[0], NoAttrs, None), cfg);
      var a, b := FanOut(name, xs[1..], cfg), FanOut(name, ys, cfg);
      assert zs[0] == xs[0] && zs[1..] == xs[1..] + ys;
      assert FanOut(name, zs, cfg) == head + FanOut(name, xs[1..] + ys, cfg);
      FanOutAppend(name, xs[1..], ys, cfg);
      ConcatAssoc(head, a, b);
    }
  }

  /** The members after the first of a concatenation are well-formed. */
  lemma ItemsTailWellFormed(xs: seq<Value>, ys: seq<Value>)
    requires xs != []
    requires forall i | 0 <= i < |xs| :: WellFormed(xs[i])
    requires forall i | 0 <= i < |ys| :: WellFormed(ys[i])
    ensures forall i | 0 <= i < |xs[1..]| :: WellFormed(xs[1..][i])
    ensures forall i | 0 <= i < |xs + ys| :: WellFormed((xs + ys)[i])
  {
  }

  /** Content spread over siblings: appending a member appends that
      member's element, named like the parent, at the parent's depth, with
      no wrapping element and without the parent's attributes; an empty
      array renders nothing at all, not even a header. */
  lemma SpreadAppendsMemberElement(name: Name, xs: seq<Value>, x: Value, attrs: Attrs,
                                   selfClose: Option<bool>, cfg: Config)
    requires IsFanOut(Arr(xs + [x]))
    requires forall i | 0 <= i < |xs| :: WellFormed(xs[i])
    requires WellFormed(x)
    ensures IsFanOut(Arr(xs))
    ensures ToXML(Special(name, Arr([]), attrs, selfClose), cfg) == ""
    ensures ToXML(Special(name, Arr(xs + [x]), attrs, selfClose), cfg)
            == ToXML(Special(name, Arr(xs), attrs, selfClose), cfg)
               + ToXML(Special(name, x, NoAttrs, None), cfg)
  {
    AppendItemWellFormed(xs, x);
    FanOutPrefix(xs, x);
    FanOutAppend(name, xs, [x], cfg);
  }

  lemma FanOutPrefix(xs: seq<Value>, x: Value)
    requires IsFanOut(Arr(xs + [x]))
    ensures IsFanOut(Arr(xs))
  {
    var all := xs + [x];
    assert forall i | 0 <= i < |xs| :: xs[i] == all[i];
  }

  lemma {:induction false} RenderItemsAppend(xs: seq<Value>, ys: seq<Value>, cfg: Config, first: bool)
    requires forall i | 0 <= i < |xs| :: WellFormed(xs[i])
    requires forall i | 0 <= i < |ys| :: WellFormed(ys[i])
    ensures RenderItems(xs + ys, cfg, first)
            == RenderItems(xs, cfg, first) + RenderItems(ys, cfg, first && xs == [])
    decreases |xs|
  {
    if xs == [] {
      assert xs + ys == ys;
    } else {
      var zs := xs + ys;
      ItemsTailWellFormed(xs, ys);
      var head := RenderItems([xs[0]], cfg, first);
      var a, b := RenderItems(xs[1..], cfg, false), RenderItems(ys, cfg, false);
      assert zs[0] == xs[0] && zs[1..] == xs[1..] + ys;
      RenderItemsCons(zs, cfg, first);
      RenderItemsCons(xs, cfg, first);
      RenderItemsAppend(xs[1..], ys, cfg, false);
      ConcatAssoc(head, a, b);
    }
  }

  lemma RenderItemsCons(zs: seq<Value>, cfg: Config, first: bool)
    requires zs != [] && forall i | 0 <= i < |zs| :: WellFormed(zs[i])
    ensures forall i | 0 <= i < |zs[1..]| :: WellFormed(zs[1..][i])
    ensures RenderItems(zs, cfg, first) == RenderItems([zs[0]], cfg, first) + RenderItems(zs[1..], cfg, false)
  {
    assert [zs[0]][1..] == [];
    assert RenderItems([zs[0]], cfg, first) == ToXML(zs[0], cfg.(isFirstItem := first)) + "";
  }

  /** An array renders its members in order, each with the array's
      configuration and only the first marked as the first item. */
  lemma ArrayAppendsMember(xs: seq<Value>, x: Value, cfg: Config)
    requires forall i | 0 <= i < |xs| :: WellFormed(xs[i])
    requires WellFormed(x)
    ensures WellFormed(Arr(xs + [x]))
    ensures ToXML(Arr(xs + [x]), cfg)
            == ToXML(Arr(xs), cfg) + ToXML(x, cfg.(isFirstItem := xs == []))
  {
    var all := xs + [x];
    AppendItemWellFormed(xs, x);
    var header := HeaderString(cfg.header, cfg.indent, cfg.depth == 0 && cfg.isFirstItem);
    var last := ToXML(x, cfg.(isFirstItem := xs == []));
    calc {
      ToXML(Arr(all), cfg);
      { ArrayUnfolds(all, cfg); }
      header + RenderItems(all, cfg, true);
      { RenderItemsAppend(xs, [x], cfg, true); SingleItem(x, cfg, xs == []); }
      header + (RenderItems(xs, cfg, true) + last);
      { ConcatAssoc(header, RenderItems(xs, cfg, true), last);
        ArrayUnfolds(xs, cfg); }
      ToXML(Arr(xs), cfg) + last;
    }
  }

  lemma AppendItemWellFormed(xs: seq<Value>, x: Value)
    requires forall i | 0 <= i < |xs| :: WellFormed(xs[i])
    requires WellFormed(x)
    ensures forall i | 0 <= i < |[x]| :: WellFormed([x][i])
    ensures forall i | 0 <= i < |xs + [x]| :: WellFormed((xs + [x])[i])
  {
  }

  lemma SingleItem(x: Value, cfg: Config, first: bool)
    requires WellFormed(x)
    ensures forall i | 0 <= i < |[x]| :: WellFormed([x][i])
    ensures RenderItems([x], cfg, first) == ToXML(x, cfg.(isFirstItem := first))
  {
    assert [x][1..] == [];
  }

  lemma {:induction false} RenderEntriesAppend(a: seq<(Key, Value)>, b: seq<(Key, Value)>,
                                               cfg: Config, first: bool)
    requires forall e | e in a :: WellFormed(e.1) && HoistOk(e.1)
    requires forall e | e in b :: WellFormed(e.1) && HoistOk(e.1)
    ensures RenderEntries(a + b, cfg, first)
            == RenderEntries(a, cfg, first) + RenderEntries(b, cfg, first && a == [])
    decreases |a|
  {
    if a == [] {
      assert a + b == b;
    } else {
      var ab := a + b;
      EntriesTailWellFormed(a, b);
      var head := ToXML(EntryElement(a[0].0, a[0].1), cfg.(isFirstItem := first));
      calc {
        RenderEntries(ab, cfg, first);
        { assert ab[0] == a[0]; assert ab[1..] == a[1..] + b; }
        head + RenderEntries(a[1..] + b, cfg, false);
        { RenderEntriesAppend(a[1..], b, cfg, false); }
        head + (RenderEntries(a[1..], cfg, false) + RenderEntries(b, cfg, false));
        { ConcatAssoc(head, RenderEntries(a[1..], cfg, false), RenderEntries(b, cfg, false)); }
        (head + RenderEntries(a[1..], cfg, false)) + RenderEntries(b, cfg, false);
        RenderEntries(a, cfg, first) + RenderEntries(b, cfg, first && a == []);
      }
    }
  }

  /** The entries after the first of a concatenation are well-formed. */
  lemma EntriesTailWellFormed(a: seq<(Key, Value)>, b: seq<(Key, Value)>)
    requires a != []
    requires forall e | e in a :: WellFormed(e.1) && HoistOk(e.1)
    requires forall e | e in b :: WellFormed(e.1) && HoistOk(e.1)
    ensures a[0] in a
    ensures forall e | e in a[1..] :: WellFormed(e.1) && HoistOk(e.1)
    ensures forall e | e in a + b :: WellFormed(e.1) && HoistOk(e.1)
  {
    assert forall e | e in a[1..] :: e in a;
  }

  /** A plain mapping renders one element per key, in key order, each
      built by `EntryElement` and rendered with the mapping's configuration,
      only the first marked as the first item. */
  lemma ObjectAppendsKeyElement(es: seq<(Key, Value)>, k: Key, v: Value, cfg: Config)
    requires forall e | e in es :: WellFormed(e.1) && HoistOk(e.1)
    requires WellFormed(v) && HoistOk(v)
    ensures WellFormed(Obj(es + [(k, v)]))
    ensures ToXML(Obj(es + [(k, v)]), cfg)
            == ToXML(Obj(es), cfg) + ToXML(EntryElement(k, v), cfg.(isFirstItem := es == []))
  {
    var all := es + [(k, v)];
    AppendEntryWellFormed(es, k, v);
    var header := HeaderString(cfg.header, cfg.indent, cfg.depth == 0 && cfg.isFirstItem);
    calc {
      ToXML(Obj(all), cfg);
      { ObjectUnfolds(all, cfg); }
      header + RenderEntries(all, cfg, true);
      { RenderEntriesAppend(es, [(k, v)], cfg, true); }
      header + (RenderEntries(es, cfg, true) + RenderEntries([(k, v)], cfg, es == []));
      { SingleEntry(k, v, cfg, es == []); }
      header + (RenderEntries(es, cfg, true) + ToXML(EntryElement(k, v), cfg.(isFirstItem := es == [])));
      { ConcatAssoc(header, RenderEntries(es, cfg, true),
                    ToXML(EntryElement(k, v), cfg.(isFirstItem := es == [])));
        ObjectUnfolds(es, cfg); }
      ToXML(Obj(es), cfg) + ToXML(EntryElement(k, v), cfg.(isFirstItem := es == []));
    }
  }

  lemma AppendEntryWellFormed(es: seq<(Key, Value)>, k: Key, v: Value)
    requires forall e | e in es :: WellFormed(e.1) && HoistOk(e.1)
    requires WellFormed(v) && HoistOk(v)
    ensures forall e | e in [(k, v)] :: WellFormed(e.1) && HoistOk(e.1)
    ensures forall e | e in es + [(k, v)] :: WellFormed(e.1) && HoistOk(e.1)
    ensures WellFormed(Obj(es + [(k, v)]))
  {
    assert forall e | e in es + [(k, v)] :: e in es || e == (k, v);
  }

  lemma SingleEntry(k: Key, v: Value, cfg: Config, first: bool)
    requires WellFormed(v) && HoistOk(v)
    ensures forall e | e in [(k, v)] :: WellFormed(e.1) && HoistOk(e.1)
    ensures RenderEntries([(k, v)], cfg, first) == ToXML(EntryElement(k, v), cfg.(isFirstItem := first))
  {
    assert [(k, v)][1..] == [];
  }

  /** A mapping with no keys renders nothing below the top level. */
  lemma EmptyMappingRendersNothing(cfg: Config)
    requires cfg.depth > 0
    ensures ToXML(Obj([]), cfg) == ""
  {
    ObjectUnfolds([], cfg);
  }

  /** Hoisting, rendered: a key whose nested mapping holds nothing but
      `_attrs` and `_selfCloseTag` renders as the key's self-closed element
      carrying the hoisted attributes, unless the hoisted `_selfCloseTag`
      is `false`. */
  lemma HoistOnlyMappingSelfCloses(es: seq<(Key, Value)>, k: Key, inner: seq<(Key, Value)>, cfg: Config)
    requires forall e | e in es :: WellFormed(e.1) && HoistOk(e.1)
    requires WellFormed(Obj(inner)) && HoistOk(Obj(inner))
    requires Stripped(inner) == [] && HoistedSelfClose(inner) != Some(false)
    requires !IsPrivateName(k)
    ensures WellFormed(Obj(es + [(k, Obj(inner))]))
    ensures ToXML(Obj(es + [(k, Obj(inner))]), cfg)
            == ToXML(Obj(es), cfg) + SelfClosedText(k, HoistedAttrs(inner), cfg.(isFirstItem := es == []))
  {
    var c := cfg.(isFirstItem := es == []);
    ObjectAppendsKeyElement(es, k, Obj(inner), cfg);
    var el := EntryElement(k, Obj(inner));
    assert el.content == Obj([]);
    assert el == Special(k, Obj([]), HoistedAttrs(inner), HoistedSelfClose(inner));
    EmptyMappingRendersNothing(Nested(c));
    SelfClosingIff(k, Obj([]), HoistedAttrs(inner), HoistedSelfClose(inner), c);
  }

  /** Two configurations that can only differ in what the top level of
      the output uses: the header, the first-item mark and, when no indent
      is configured, the depth. */
  predicate AlikeBelowTop(c1: Config, c2: Config) {
    && c1.depth > 0 && c2.depth > 0
    && c1.indent == c2.indent
    && c1.filter == c2.filter
    && c1.attributesFilter == c2.attributesFilter
    && (c1.indent == "" || c1.depth == c2.depth)
  }

  /** Below the top level a value renders the same under alike
      configurations: no header is ever emitted there, the first-item mark
      has no effect, and without an indent the depth has no effect. */
  lemma {:induction false} ToXMLAlike(v: Value, c1: Config, c2: Config)
    requires WellFormed(v) && AlikeBelowTop(c1, c2)
    ensures ToXML(v, c1) == ToXML(v, c2)
    decreases Size(v), 2
  {
    assert HeaderFor(v, c1) == "" == HeaderFor(v, c2);
    match v
    case Special(name, content, attrs, selfClose) =>
      if content.Null? {
      } else if IsFanOut(content) {
        assert WellFormed(Arr(content.items));
        assert Size(content) == 1 + SizeItems(content.items);
        FanOutAlike(name, content.items, c1, c2);
      } else if IsPrivateName(name) {
      } else {
        RenderElementAlike(name, content, attrs, selfClose, c1, c2);
      }
    case Arr(xs) =>
      RenderItemsAlike(xs, c1, c2, true);
    case Obj(es) =>
      RenderEntriesAlike(es, c1, c2, true);
    case _ =>
  }

  lemma {:induction false} RenderElementAlike(name: Name, content: Value, attrs: Attrs,
                                              selfClose: Option<bool>, c1: Config, c2: Config)
    requires WellFormed(content) && AlikeBelowTop(c1, c2)
    ensures RenderElement(name, content, attrs, selfClose, c1)
            == RenderElement(name, content, attrs, selfClose, c2)
    decreases 1 + Size(content), 1
  {
    ToXMLAlike(content, Nested(c1), Nested(c2));
    var inner := ToXML(content, Nested(c1));
    assert PreTag(c1) == PreTag(c2);
    assert PreTagClose(inner, c1) == PreTagClose(inner, c2);
    assert ElementText(name, inner, attrs, selfClose, c1) == ElementText(name, inner, attrs, selfClose, c2);
  }

  lemma {:induction false} FanOutAlike(name: Name, xs: seq<Value>, c1: Config, c2: Config)
    requires forall i | 0 <= i < |xs| :: WellFormed(xs[i])
    requires AlikeBelowTop(c1, c2)
    ensures FanOut(name, xs, c1) == FanOut(name, xs, c2)
    decreases SizeItems(xs), 0
  {
    if xs != [] {
      ToXMLAlike(Special(name, xs[0], NoAttrs, None), c1, c2);
      FanOutAlike(name, xs[1..], c1, c2);
    }
  }

  lemma {:induction false} RenderItemsAlike(xs: seq<Value>, c1: Config, c2: Config, first: bool)
    requires forall i | 0 <= i < |xs| :: WellFormed(xs[i])
    requires AlikeBelowTop(c1, c2)
    ensures RenderItems(xs, c1, first) == RenderItems(xs, c2, first)
    decreases SizeItems(xs), 0
  {
    if xs != [] {
      ToXMLAlike(xs[0], c1.(isFirstItem := first), c2.(isFirstItem := first));
      RenderItemsAlike(xs[1..], c1, c2, false);
    }
  }

  lemma {:induction false} RenderEntriesAlike(es: seq<(Key, Value)>, c1: Config, c2: Config, first: bool)
    requires forall e | e in es :: WellFormed(e.1) && HoistOk(e.1)
    requires AlikeBelowTop(c1, c2)
    ensures RenderEntries(es, c1, first) == RenderEntries(es, c2, first)
    decreases SizeEntries(es), 0
  {
    if es != [] {
      assert es[0] in es;
      assert SizeEntries(es) == SizeEntry(es[0]) + SizeEntries(es[1..]);
      ToXMLAlike(EntryElement(es[0].0, es[0].1), c1.(isFirstItem := first), c2.(isFirstItem := first));
      RenderEntriesAlike(es[1..], c1, c2, false);
    }
  }

  /** The header is only ever emitted by depth-0 calls. */
  lemma HeaderOnlyAtTop(v: Value, cfg: Config)
    requires WellFormed(v) && cfg.depth > 0
    ensures ToXML(v, cfg) == ToXML(v, cfg.(header := NoHeader))
  {
    ToXMLAlike(v, cfg, cfg.(header := NoHeader));
  }

  /** Without an indent no depth-dependent text is injected: a nested value
      renders the same at every depth. */
  lemma NoIndentIgnoresDepth(v: Value, cfg: Config, d: nat)
    requires WellFormed(v) && cfg.indent == "" && cfg.depth > 0 && d > 0
    ensures ToXML(v, cfg) == ToXML(v, cfg.(depth := d))
  {
    ToXMLAlike(v, cfg, cfg.(depth := d));
  }

  /** Without an indent the layout text around tags is empty. */
  lemma NoIndentNoLayout(inner: string, cfg: Config)
    requires cfg.indent == ""
    ensures PreTag(cfg) == "" && PreTagClose(inner, cfg) == ""
    ensures HeaderString(cfg.header, cfg.indent, true) == HeaderText(cfg.header)
  {
  }
}

=== FILE: serializer.dfy ===
/** `toXML` (dist/jstoxmlparser.js:250-417): the recursive serializer.
    Every call renders its value and prepends the header when the call is
    the start of the output. Function values are not part of `Value`. */
module Serializer {
  import opened Wrappers
  import opened Values
  import opened Filters
  import opened Attributes
  import opened Normalize
  import opened Layout

  /** `isOutputStart`: a depth-0 call on a simple value, or on any value
      its caller marked as the first item. */
  predicate IsOutputStart(v: Value, cfg: Config) {
    cfg.depth == 0 && (IsSimpleType(v) || cfg.isFirstItem)
  }

  /** The header a call prepends to its own output. */
  function HeaderFor(v: Value, cfg: Config): string {
    HeaderString(cfg.header, cfg.indent, IsOutputStart(v, cfg))
  }

  /** `sub` occurs somewhere in `s`. */
  predicate Contains(s: string, sub: string) {
    exists i | 0 <= i <= |s| :: sub <= s[i..]
  }

  /** `_name.match(PRIVATE_VARS_REGEXP)`: the name contains `_selfCloseTag`
      or `_attrs`. */
  predicate IsPrivateName(name: string) {
    Contains(name, "_selfCloseTag") || Contains(name, "_attrs")
  }

  /** Content that a special object spreads over sibling elements: an
      array whose members are all primitives or all plain mappings (every
      member of an empty array qualifies). */
  predicate IsFanOut(content: Value) {
    content.Arr? && (AllPrimitive(content.items) || AllSimpleObject(content.items))
  }

  /** `shouldSelfClose`: the inner rendering is empty and `_selfCloseTag`
      is not the boolean `false`. */
  predicate SelfCloses(inner: string, selfClose: Option<bool>) {
    inner == "" && selfClose.GetOr(true)
  }

  /** Line break and indent before an opening tag: the break is left out
      at the start of the output (a special object is simple, so that is
      every depth-0 element), and so is the indent, which is empty there.
      A nested element starts on a new line, indented once per level. */
  function PreTag(cfg: Config): (r: string)
    ensures r == "" <==> cfg.indent == "" || cfg.depth == 0
  {
    (if cfg.indent != "" && cfg.depth != 0 then "\n" else "") + IndentStr(cfg.indent, cfg.depth)
  }

  /** Line break and indent before a closing tag, left out when the inner
      rendering holds no tag. At depth 0 it is a bare line break. */
  function PreTagClose(inner: string, cfg: Config): (r: string)
    ensures r == "" <==> cfg.indent == "" || IsSimpleXml(inner)
  {
    if cfg.indent != "" && !IsSimpleXml(inner) then "\n" + IndentStr(cfg.indent, cfg.depth) else ""
  }

  /** A non-empty layout text is a line break followed by the indent
      unit repeated once per level. */
  predicate IsBreakAndIndent(r: string, cfg: Config) {
    |r| == 1 + cfg.depth * |cfg.indent| && r[0] == '\n'
    && forall i | 1 <= i < |r| :: r[i] == cfg.indent[(i - 1) % |cfg.indent|]
  }

  /** The text before an opening or a closing tag, when there is any, is
      a line break and `depth` copies of the indent unit. */
  lemma LayoutBreakAndIndent(inner: string, cfg: Config)
    ensures PreTag(cfg) != "" ==> IsBreakAndIndent(PreTag(cfg), cfg)
    ensures PreTagClose(inner, cfg) != "" ==> IsBreakAndIndent(PreTagClose(inner, cfg), cfg)
  {
  }

  /** The configuration a child is rendered with. */
  function Nested(cfg: Config): Config {
    cfg.(depth := cfg.depth + 1)
  }

  function ToXML(v: Value, cfg: Config): string
    requires WellFormed(v)
    decreases Size(v), 2
  {
    var header := HeaderFor(v, cfg);
    match v
    case Special(name, content, attrs, selfClose) =>
      if content.Null? then header + name
      else if IsFanOut(content) then
        assert WellFormed(Arr(content.items));
        assert Size(content) == 1 + SizeItems(content.items);
        FanOut(name, content.items, cfg)
      else if IsPrivateName(name) then header
      else header + RenderElement(name, content, attrs, selfClose, cfg)
    case Arr(xs) => header + RenderItems(xs, cfg, true)
    case Obj(es) => header + RenderEntries(es, cfg, true)
    // An undefined value defaults to `{}`, an object with no keys.
    case Undefined => header
    case _ => header + FilterStr(v, cfg.filter)
  }

  /** The tag of a special object that is neither raw text, nor spread
      over siblings, nor private, around its content rendered one level
      deeper. */
  function RenderElement(name: Name, content: Value, attrs: Attrs, selfClose: Option<bool>,
                         cfg: Config): string
    requires WellFormed(content)
    decreases 1 + Size(content), 1
  {
    ElementText(name, ToXML(content, Nested(cfg)), attrs, selfClose, cfg)
  }

  /** The element text around an already rendered inner text
      (dist/jstoxmlparser.js:309-324): `<name attrs/>` when it self-closes,
      otherwise `<name attrs>inner</name>`, with the configured layout text
      before the opening and the closing tag. */
  function ElementText(name: Name, inner: string, attrs: Attrs, selfClose: Option<bool>,
                       cfg: Config): string
  {
    var closes := SelfCloses(inner, selfClose);
    var tag := "<" + name + FormatAttributes(attrs, cfg.attributesFilter) + (if closes then "/" else "") + ">";
    PreTag(cfg) + tag + (if closes then "" else inner + PreTagClose(inner, cfg) + "</" + name + ">")
  }

  /** One element per member, all with the same name and configuration
      (dist/jstoxmlparser.js:290-299); the members' elements carry no
      `_attrs` or `_selfCloseTag`. */
  function FanOut(name: Name, xs: seq<Value>, cfg: Config): string
    requires forall i | 0 <= i < |xs| :: WellFormed(xs[i])
    decreases SizeItems(xs), 0
  {
    if xs == [] then ""
    else ToXML(Special(name, xs[0], NoAttrs, None), cfg) + FanOut(name, xs[1..], cfg)
  }

  /** The array branch (dist/jstoxmlparser.js:389-404): members in order,
      only the first marked as the first item. */
  function RenderItems(xs: seq<Value>, cfg: Config, first: bool): string
    requires forall i | 0 <= i < |xs| :: WellFormed(xs[i])
    decreases SizeItems(xs), 0
  {
    if xs == [] then ""
    else ToXML(xs[0], cfg.(isFirstItem := first)) + RenderItems(xs[1..], cfg, false)
  }

  /** The object branch (dist/jstoxmlparser.js:328-377): one element per
      key, in key order, only the first marked as the first item. */
  function RenderEntries(es: seq<(Key, Value)>, cfg: Config, first: bool): string
    requires forall e | e in es :: WellFormed(e.1) && HoistOk(e.1)
    decreases SizeEntries(es), 0
  {
    if es == [] then ""
    else
      assert es[0] in es;
      assert SizeEntries(es) == SizeEntry(es[0]) + SizeEntries(es[1..]);
      ToXML(EntryElement(es[0].0, es[0].1), cfg.(isFirstItem := first))
        + RenderEntries(es[1..], cfg, false)
  }
}

=== FILE: values.dfy ===
/** The input value tree of the serializer (dist/jstoxmlparser.js), its type
    classifier `getType`, the shape predicates built on it, and JavaScript's
    `String()` conversion and truthiness restricted to these shapes. */
module Values {
  import opened Wrappers

  /** A key of a plain mapping. An object whose `_name` is truthy is
      classified as a special object; as a modelling choice a plain mapping
      never carries a `_name` key at all, not even a falsy one. Empty keys
      are outside the model. */
  type Key = s: string | s != "" && s != "_name" witness "k"

  /** The `_name` of a special object: truthy, hence non-empty. */
  type Name = s: string | s != "" witness "n"

  datatype Value =
    | Str(s: string)
    | Num(n: int)
    | Bool(b: bool)
    | Null
    | Undefined
    | Date(text: string)
    | Arr(items: seq<Value>)
    | Obj(entries: seq<(Key, Value)>)
      /** `{ _name, _content, _attrs, _selfCloseTag }`; an absent `_content`
          is `Undefined`, absent `_attrs` is `NoAttrs`, and `_selfCloseTag`
          only matters when it is a boolean. */
    | Special(name: Name, content: Value, attrs: Attrs, selfClose: Option<bool>)

  /** An attribute collection: a mapping (object form) or a sequence of
      single-key mappings (array form, which allows repeated keys). */
  datatype Attrs =
    | AttrMap(pairs: seq<(string, Value)>)
    | AttrList(pairs: seq<(string, Value)>)

  /** Absent `_attrs` default to `{}`. */
  const NoAttrs: Attrs := AttrMap([])

  /** The categories `getType` returns. */
  datatype Kind =
    | ArrayKind | SpecialKind | DateKind | NullKind
    | StringKind | NumberKind | BooleanKind | UndefinedKind | ObjectKind

  /** `getType`: arrays first, then objects with a truthy `_name`, dates,
      null, and otherwise the native `typeof`. */
  function KindOf(v: Value): (k: Kind)
    ensures k == ArrayKind <==> v.Arr?
    ensures k == SpecialKind <==> v.Special?
    ensures k == ObjectKind <==> v.Obj?
    ensures k == DateKind <==> v.Date?
    ensures k == NullKind <==> v.Null?
    ensures k == UndefinedKind <==> v.Undefined?
    ensures k == StringKind <==> v.Str?
    ensures k == NumberKind <==> v.Num?
    ensures k == BooleanKind <==> v.Bool?
  {
    match v
    case Arr(_) => ArrayKind
    case Special(_, _, _, _) => SpecialKind
    case Date(_) => DateKind
    case Null => NullKind
    case Str(_) => StringKind
    case Num(_) => NumberKind
    case Bool(_) => BooleanKind
    case Undefined => UndefinedKind
    case Obj(_) => ObjectKind
  }

  /** `isPrimitive`: string, number or boolean. */
  predicate IsPrimitive(v: Value) {
    KindOf(v) in {StringKind, NumberKind, BooleanKind}
  }

  /** `isSimpleObject`: a plain mapping that is not an array. */
  predicate IsSimpleObject(v: Value) {
    KindOf(v) == ObjectKind && !v.Arr?
  }

  /** `isSimpleType`: a value that fits on one line (primitives, dates and
      special objects). */
  predicate IsSimpleType(v: Value) {
    KindOf(v) in {StringKind, NumberKind, BooleanKind, DateKind, SpecialKind}
  }

  /** `isSimpleXML`: a rendered string that contains no `<`. */
  predicate IsSimpleXml(xml: string) {
    '<' !in xml
  }

  /** Text is simple exactly when both of its parts are: one tag anywhere
      makes the whole rendering nested. */
  lemma SimpleXmlConcat(a: string, b: string)
    ensures IsSimpleXml(a + b) <==> IsSimpleXml(a) && IsSimpleXml(b)
  {
  }

  predicate AllPrimitive(xs: seq<Value>) {
    forall i | 0 <= i < |xs| :: IsPrimitive(xs[i])
  }

  predicate AllSimpleObject(xs: seq<Value>) {
    forall i | 0 <= i < |xs| :: IsSimpleObject(xs[i])
  }

  /** The shape predicates in terms of value shapes: primitives are strings,
      numbers and booleans; the plain objects are exactly the mappings; and
      the one-line values add dates and special objects to the primitives. */
  lemma ShapePredicates(v: Value)
    ensures IsPrimitive(v) <==> v.Str? || v.Num? || v.Bool?
    ensures IsSimpleObject(v) <==> v.Obj?
    ensures IsSimpleType(v) <==> IsPrimitive(v) || v.Date? || v.Special?
    ensures !(IsPrimitive(v) && IsSimpleObject(v))
  {
  }

  /** JavaScript truthiness (numbers are integers here, so there is no NaN). */
  predicate Truthy(v: Value) {
    match v
    case Str(s) => s != ""
    case Num(n) => n != 0
    case Bool(b) => b
    case Null => false
    case Undefined => false
    case _ => true
  }

  function DigitChar(d: nat): (c: char)
    requires d < 10
    ensures '0' <= c <= '9'
  {
    "0123456789"[d]
  }

  function DigitValue(c: char): nat
    requires '0' <= c <= '9'
  {
    (c as int - '0' as int) as nat
  }

  /** Decimal digits of a natural number, most significant first. */
  function NatToString(n: nat): (r: string)
    ensures |r| > 0
    ensures forall i | 0 <= i < |r| :: '0' <= r[i] <= '9'
    ensures |r| > 1 ==> r[0] != '0'
  {
    if n < 10 then [DigitChar(n)] else NatToString(n / 10) + [DigitChar(n % 10)]
  }

  /** The value a string of decimal digits denotes. */
  function DigitsValue(s: string): nat
    requires forall i | 0 <= i < |s| :: '0' <= s[i] <= '9'
  {
    if s == [] then 0 else DigitsValue(s[..|s| - 1]) * 10 + DigitValue(s[|s| - 1])
  }

  lemma DigitRoundTrip(d: nat)
    requires d < 10
    ensures DigitValue(DigitChar(d)) == d
  {
    assert "0123456789"[d] as int == '0' as int + d;
  }

  /** Reading back the decimal text of `n` gives `n`. */
  lemma {:induction false} NatToStringRoundTrip(n: nat)
    ensures DigitsValue(NatToString(n)) == n
  {
    if n < 10 {
      DigitRoundTrip(n);
      assert [DigitChar(n)][..0] == [];
    } else {
      var s := NatToString(n);
      assert s[..|s| - 1] == NatToString(n / 10);
      assert s[|s| - 1] == DigitChar(n % 10);
      NatToStringRoundTrip(n / 10);
      DigitRoundTrip(n % 10);
    }
  }

  predicate AllDigits(s: string) {
    forall i | 0 <= i < |s| :: '0' <= s[i] <= '9'
  }

  /** Integer text: decimal digits, optionally after a minus sign. */
  predicate IsIntText(r: string) {
    |r| > 0 && (if r[0] == '-' then |r| > 1 && AllDigits(r[1..]) else AllDigits(r))
  }

  /** The integer an integer text denotes. */
  function ParseInt(r: string): int
    requires IsIntText(r)
  {
    if r[0] == '-' then -(DigitsValue(r[1..]) as int) else DigitsValue(r)
  }

  /** `String(n)` loses nothing: the text is integer text and reading it
      back gives `n`. */
  lemma IntToStringRoundTrip(n: int)
    ensures IsIntText(IntToString(n)) && ParseInt(IntToString(n)) == n
  {
    var r := IntToString(n);
    if n < 0 {
      NatToStringRoundTrip(-n);
      assert r[1..] == NatToString(-n);
    } else {
      NatToStringRoundTrip(n);
    }
  }

  lemma ConcatAssoc(a: string, b: string, c: string)
    ensures a + (b + c) == a + b + c
  {
  }

  /** `String(n)` for an integer. */
  function IntToString(n: int): (r: string)
    ensures |r| > 0 && (n < 0 <==> r[0] == '-')
  {
    if n < 0 then "-" + NatToString(-n) else NatToString(n)
  }

  /** JavaScript's `String(v)`; objects print as `[object Object]` and an
      array joins its members with commas, null and undefined members
      printing as nothing. */
  function Text(v: Value): string {
    match v
    case Str(s) => s
    case Num(n) => IntToString(n)
    case Bool(b) => if b then "true" else "false"
    case Null => "null"
    case Undefined => "undefined"
    case Date(t) => t
    case Arr(xs) => JoinMembers(xs)
    case Obj(_) => "[object Object]"
    case Special(_, _, _, _) => "[object Object]"
  }

  /** `Array.prototype.join(',')`. */
  function JoinMembers(xs: seq<Value>): string
    decreases xs
  {
    if xs == [] then ""
    else
      var first := if xs[0].Null? || xs[0].Undefined? then "" else Text(xs[0]);
      if |xs| == 1 then first else first + "," + JoinMembers(xs[1..])
  }

  /** A size measure under which every recursive call of the serializer
      shrinks: each array member weighs 2 more than its own size and each
      mapping entry 3 more, so that wrapping a member or an entry in a
      fresh special object never grows the measure. */
  function Size(v: Value): nat
    decreases v
  {
    match v
    case Arr(xs) => 1 + SizeItems(xs)
    case Obj(es) => 1 + SizeEntries(es)
    case Special(_, c, _, _) => 1 + Size(c)
    case _ => 1
  }

  function SizeItems(xs: seq<Value>): nat
    decreases xs
  {
    if xs == [] then 0 else 2 + Size(xs[0]) + SizeItems(xs[1..])
  }

  function SizeEntries(es: seq<(Key, Value)>): nat
    decreases es
  {
    if es == [] then 0 else SizeEntry(es[0]) + SizeEntries(es[1..])
  }

  function SizeEntry(e: (Key, Value)): nat
    decreases e
  {
    3 + Size(e.1)
  }
}

=== FILE: wrappers.dfy ===
/** The optional-value wrapper used throughout the model: JavaScript's
    `undefined`-or-value fields become `Option`s. */
module Wrappers {

  datatype Option<+T> = None | Some(value: T) {

    /** Returns the wrapped value, or `default` when there is none. */
    function GetOr(default: T): (r: T)
      ensures Some? ==> r == value
      ensures None? ==> r == default
    {
      match this
      case Some(v) => v
      case None => default
    }
  }
}
